=== FILE: README.md ===
# Tet insurance agents, modelled in Dafny

This project models the decision-making core of two Vietnamese Tet-season insurance sales
agents.

- **The Gemini-backed agent** (`tet_insurance_agent_gemini.py`) has these parts:
  - a knowledge base of documents with embeddings, searched by similarity;
  - a bounded, typed short-term memory that evicts its oldest items first;
  - the phase discount and phase description tables;
  - the context it assembles for each prompt: profile, phase, relevant knowledge, then recent
    memory;
  - the keyword tagging that records each turn in memory;
  - the behaviour of one turn when the model call succeeds and when it fails.
- **The rule-only agent** (`tet_insurance_agent.py`) has these parts:
  - the customer profiles and the product catalog;
  - the four-rule needs analysis;
  - Tet-peak pricing (30% off, rounded down);
  - the quick travel quote;
  - the greeting;
  - the first-match-wins reply dispatcher:
    claim > travel > pricing > agreement > refusal > default.

Modules follow the program's structure:

- `Seqs` and `Strings` hold Python's slice rules, list comprehension filtering, `in` on
  strings, `lower`, `title` and `join`.
- `Profiles` and `Catalog` hold the static data.
- `Memory` is `ShortTermMemory`.
- `Knowledge` is `KnowledgeBase`.
- `ContextAgent` is the Gemini-backed agent without the model call.
- `RuleAgent` is the rule-only agent.

Replies of the rule-only agent are tags that carry the values the source formats into its
reply templates: prices, the product, the destination and the reason.

Modelling choices:

- Phases are the code's strings "pre-tet", "tet-peak" and "post-tet", compared for equality
  with a catch-all for any other string. The rule-only agent discounts only at "tet-peak";
  in every other phase it shows the list price.
- Re-adding a document id appends a second copy; nothing is deduplicated or overwritten
  (`Knowledge.DuplicateIdIsKept`).
- The rule-only dispatcher is modelled as written, so a pricing question that says
  "bảo hiểm" (insurance) gets the claim reply; the corrected claim table is modelled beside
  it (see Findings).
- `get_recent(0)` and a memory capacity of 0 follow Python's `[-0:]`, which is the whole list.

## Model

| member | source | states |
|---|---|---|
| Seqs.PyTake | tet_insurance_agent_gemini.py:114 | Python's `s[:k]` is a prefix of `s`: `min(k, len)` items for `k >= 0`, all but the last `min(-k, len)` for `k < 0` |
| Seqs.PyDrop | tet_insurance_agent_gemini.py:145-146 | Python's `s[k:]` keeps a suffix of `s`: `len - min(k, len)` items for `k >= 0`, the last `min(-k, len)` for `k < 0` |
| Seqs.Filter | tet_insurance_agent_gemini.py:152-154 | a list comprehension keeps exactly the elements that pass the test, and never lengthens the list |
| Seqs.FilterKeepsIncreasing | tet_insurance_agent_gemini.py:152-154 | filtering a list keeps its order: a list increasing under a key stays increasing |
| Strings.Lower | tet_insurance_agent.py:277 | lower-casing keeps the length, leaves no ASCII capital, and changes no character that is not an ASCII capital |
| Strings.Title | tet_insurance_agent.py:290 | title-casing keeps the length and changes only the case of each character: the first character and every character after a non-letter are upper-cased, every character after a letter is lower-cased |
| Strings.Join | tet_insurance_agent_gemini.py:170 | `sep.join(parts)` is empty for no parts; otherwise each part sits at its place (after the earlier parts, each followed by one separator), a separator follows every part but the last, and the text is exactly as long as the parts plus those separators |
| Strings.JoinContainsParts | tet_insurance_agent_gemini.py:374 | every part of a join occurs in the joined text |
| Strings.NatToString | tet_insurance_agent_gemini.py:355 | `str(n)` of a non-negative number is a non-empty string of decimal digits, without a leading zero, whose decimal value is `n` |
| Strings.IntToString | tet_insurance_agent_gemini.py:355 | `str(n)` starts with a minus sign iff `n` is negative; the rest is decimal digits with no leading zero, and their value is the size of `n` |
| Strings.Contains | tet_insurance_agent.py:162 | Python's `sub in s`: some window of `s` spells `sub` |
| Strings.ContainsAny | tet_insurance_agent_gemini.py:456 | `any(word in s for word in words)`: some word of the list occurs in `s` |
| Catalog.ParseKey | tet_insurance_agent.py:198 | the dictionary lookup by product id finds only the product whose id is exactly the string asked for |
| Catalog.KeyNameRoundTrip | tet_insurance_agent.py:102-139 | every catalog id is found again by the lookup, so the six ids are distinct |
| Catalog.Lookup | tet_insurance_agent.py:102-139 | every catalog product has a positive price |
| Catalog.PeakPrice | tet_insurance_agent.py:200-202 | the peak price is 70% of the list price rounded down: `100*r <= 70*price < 100*r + 100`, and never above the list price |
| Catalog.PeakPriceMonotonic | tet_insurance_agent.py:200-202 | a dearer product never has a cheaper peak price |
| Catalog.CatalogPeakPrices | tet_insurance_agent.py:200-202 | the six peak prices, e.g. the family health package at 3,500,000 costs 2,450,000 at the peak |
| Memory.Empty | tet_insurance_agent_gemini.py:129-131 | a new memory has the given capacity and no items |
| Memory.Add | tet_insurance_agent_gemini.py:133-146 | an add with capacity >= 1 keeps the last `max_items` items of old items plus the new one, stays within capacity and ends with the new item; capacity 0 keeps everything |
| Memory.AddAll | tet_insurance_agent_gemini.py:133-146 | FIFO eviction: from a memory within its capacity, any run of adds leaves the last `max_items` of the old items followed by the added ones, in order |
| Memory.AddToFullEvictsOldest | tet_insurance_agent_gemini.py:144-146 | an add to a full memory drops exactly the oldest item |
| Memory.ZeroCapacityKeepsEverything | tet_insurance_agent_gemini.py:144-146 | with `max_items == 0` the `[-0:]` slice keeps the whole list, so the memory grows past its bound |
| Memory.GetRecent | tet_insurance_agent_gemini.py:148-150 | the last `min(n, len)` items for `n >= 1`, `[]` for an empty memory, all items for `n == 0`, and the items after the first `-n` for negative `n` |
| Memory.GetByType | tet_insurance_agent_gemini.py:152-154 | exactly the items of the requested type |
| Memory.GetByTypeAfterAppend | tet_insurance_agent_gemini.py:152-154 | appending an item extends the list of its own type by that item and leaves other types' lists unchanged, so each list keeps insertion order |
| Memory.Latest | tet_insurance_agent_gemini.py:165-167 | `get_by_type(t)[-1]` exists iff some item has type `t`, and is the last item of that type in the memory |
| Memory.SummaryParts | tet_insurance_agent_gemini.py:164-168 | one `type: content` part per type that has an item, in the order of the type list, each quoting the latest item of its type |
| Memory.Summarize | tet_insurance_agent_gemini.py:156-170 | the no-history text iff the memory is empty; the context-available text iff items exist but none of the four summary types; otherwise the parts for user_intent, product_interest, concern, decision (those present, in that order) joined by a spaced vertical bar, quoting each latest item |
| Memory.SummaryStartsWithKind | tet_insurance_agent_gemini.py:164-170 | a non-empty joined summary is neither of the two fixed texts |
| Memory.Clear | tet_insurance_agent_gemini.py:172-174 | clearing empties the memory, keeps its capacity, and the memory then summarises as having no history |
| Memory.AddAfterClear | tet_insurance_agent_gemini.py:133-146 | after `clear`, one add leaves exactly the new item for any capacity of zero or more, and nothing for a negative capacity, whose `items[-c:]` skips past the item |
| Memory.RecentAfterClear | tet_insurance_agent_gemini.py:148-150 | after `clear` and one add, `get_recent(1)` is that add's item (nothing for a negative capacity) |
| Knowledge.Empty | tet_insurance_agent_gemini.py:79-82 | a new knowledge base has no documents and as many embeddings as documents |
| Knowledge.AddDocument | tet_insurance_agent_gemini.py:84-94 | an add appends one document, stamped with the time, and the embedding of its content; earlier documents and earlier embeddings stay as they were, and both lists stay the same length |
| Knowledge.AddDocuments | tet_insurance_agent_gemini.py:84-94 | any number of adds keep the two lists the same length, and keep every embedding the embedding of the document at its position |
| Knowledge.DocumentsInInsertionOrder | tet_insurance_agent_gemini.py:88-94 | after a run of adds the documents (what `get_all_documents` returns) are the old ones followed by the added ones in call order, and the embeddings are the old ones followed by one per added document's content |
| Knowledge.DuplicateIdIsKept | tet_insurance_agent_gemini.py:84-94 | re-adding an id increases the number of documents with that id by one; there is no deduplication |
| Knowledge.InsertByScore | tet_insurance_agent_gemini.py:109-110 | inserting a later position into a stable descending ranking gives a stable descending ranking of the positions plus that one |
| Knowledge.Rank | tet_insurance_agent_gemini.py:109-110 | the stable descending sort lists every position exactly once, by non-increasing score, equal scores in insertion order |
| Knowledge.RankedIsDistinct | tet_insurance_agent_gemini.py:109-110 | a ranking never lists a position twice |
| Knowledge.Scores | tet_insurance_agent_gemini.py:104-107 | one score per stored embedding: the similarity of the query to it |
| Knowledge.SearchOrder | tet_insurance_agent_gemini.py:96-114 | `[]` for an empty store; otherwise `min(top_k, n)` positions of a stable descending ranking, each ranking before every position left out, so ties at the cut-off go to the earlier document |
| Knowledge.Search | tet_insurance_agent_gemini.py:96-119 | each result is the stored document at a ranked position with its own score; `min(top_k, n)` results; scores non-increasing |
| Knowledge.SearchIsTopK | tet_insurance_agent_gemini.py:109-114 | every stored document is either among the results or scores no higher than the last result |
| ContextAgent.NewAgent | tet_insurance_agent_gemini.py:180-196 | a new agent keeps its profile, phase and knowledge base and starts with an empty ten-item memory |
| ContextAgent.PhaseDiscount | tet_insurance_agent_gemini.py:327-334 | 30 iff the phase is "tet-peak", 15 iff "pre-tet", and 10 for every other phase |
| ContextAgent.PhaseDiscountOrdered | tet_insurance_agent_gemini.py:327-334 | the peak discount is the largest, and the pre-Tet discount beats every other non-peak phase |
| ContextAgent.PhaseContext | tet_insurance_agent_gemini.py:336-343 | non-empty iff the phase is one of the three known phases, with each phase's fixed description |
| ContextAgent.ProfileLine | tet_insurance_agent_gemini.py:355 | the profile line is `CUSTOMER PROFILE: `, the name, a comma and space, the age, ` years old, ` and the segment, with nothing else |
| ContextAgent.PhaseLine | tet_insurance_agent_gemini.py:358 | `TET PHASE: ` followed by the phase description, and nothing after the label for an unknown phase |
| ContextAgent.MemoryLine | tet_insurance_agent_gemini.py:372 | `- type: ` followed by the item's content |
| ContextAgent.HitLines | tet_insurance_agent_gemini.py:363-365 | one `- content` line per hit scoring above 0.1, in search order |
| ContextAgent.KnowledgeBlock | tet_insurance_agent_gemini.py:361-365 | a header whenever the search found anything, even if no hit clears the floor, then one line per relevant hit |
| ContextAgent.MemoryBlock | tet_insurance_agent_gemini.py:366-372 | a header and one `- type: content` line for each of the last five memory items, or nothing for an empty memory |
| ContextAgent.LinesFor | tet_insurance_agent_gemini.py:345-374 | the context lines are, in order, the profile line, the phase line, the knowledge block and the memory block |
| ContextAgent.LinesQuoteHit | tet_insurance_agent_gemini.py:361-365 | the `j`-th relevant hit is on the line `j` below the knowledge header |
| ContextAgent.LinesQuoteMemory | tet_insurance_agent_gemini.py:366-372 | the `j`-th recent memory item is on the line `j` below the memory header, after the knowledge block |
| ContextAgent.BuildContext | tet_insurance_agent_gemini.py:345-374 | the context starts with the customer profile line |
| ContextAgent.ContextQuotesRelevantHits | tet_insurance_agent_gemini.py:349-365 | every top-5 search result scoring above 0.1 is quoted in the context |
| ContextAgent.ContextQuotesRecentMemory | tet_insurance_agent_gemini.py:366-372 | every one of the last five memory items is quoted in the context |
| ContextAgent.TagNote | tet_insurance_agent_gemini.py:456-469 | the note a keyword table adds is never a conversation record |
| ContextAgent.TagNoteInjective | tet_insurance_agent_gemini.py:456-469 | different tables add different notes |
| ContextAgent.Tags | tet_insurance_agent_gemini.py:453-469 | a table fires iff one of its words occurs in the lowered message, and firing tables are listed in source order |
| ContextAgent.ConversationNote | tet_insurance_agent_gemini.py:472 | the conversation record has type "conversation"; its content is `User: ` and the message, a vertical-bar separator and `Agent: `, then exactly the first 100 characters of the reply (all of a shorter one), then `...` |
| ContextAgent.TaggedNotes | tet_insurance_agent_gemini.py:456-469 | the `j`-th note is the note of the `j`-th given table, so one note per table in the order given |
| ContextAgent.TurnNotes | tet_insurance_agent_gemini.py:450-472 | one note per firing table in table order (pricing, travel, claim, agreement, objection), then the conversation record last; each table's note is present iff one of its words is in the lowered message |
| ContextAgent.UpdateMemory | tet_insurance_agent_gemini.py:450-472 | from a memory within bounds, a turn leaves the last `max_items` of the old items followed by the turn's notes |
| ContextAgent.UpdateMemoryEndsWithConversation | tet_insurance_agent_gemini.py:472 | after a turn the newest item is the conversation record and the memory stays within its bound |
| ContextAgent.UpdateMemoryWithRoom | tet_insurance_agent_gemini.py:450-472 | while there is room, a turn adds one to six items and keeps every older item in place |
| ContextAgent.PromptFor | tet_insurance_agent_gemini.py:422-434 | the prompt carries the user's message and a context that starts with the profile line |
| ContextAgent.GenerateResponse | tet_insurance_agent_gemini.py:419-448 | on success the reply is the generated text and the turn is recorded in memory; on failure the reply is the apology with the error and the agent is unchanged; profile, phase and knowledge base never change |
| RuleAgent.Fires | tet_insurance_agent.py:162-187 | the four rule conditions: travel on "Traveling" (case-sensitive) or "trip" (any case) in the plans without travel cover; family on more than two members without life cover; motor on motor cover and "km" in the plans; business on a declared business |
| RuleAgent.RuleFor | tet_insurance_agent.py:160-192 | each rule's recommendation carries its own need and a fixed pair of products |
| RuleAgent.FiringNeeds | tet_insurance_agent.py:157-194 | the rules that fire, each exactly when its condition holds, in rule order |
| RuleAgent.RulesFor | tet_insurance_agent.py:157-194 | one recommendation per rule given, in order, and a rule's recommendation is present iff that rule is given |
| RuleAgent.AnalyzeNeeds | tet_insurance_agent.py:157-194 | at most four recommendations: a rule's recommendation is present iff its condition holds, in rule order |
| RuleAgent.FirstRecommendationIsEarliestRule | tet_insurance_agent.py:157-194 | the first recommendation comes from the earliest rule that fires |
| RuleAgent.MinhNeedsTravelThenMotor | tet_insurance_agent.py:25-37 | Minh, who plans a 300 km drive home and has motor cover, gets the travel recommendation then the motor one |
| RuleAgent.LinhNeedsFamilyFirst | tet_insurance_agent.py:38-51 | Linh, who hosts a family of four and has no life cover, gets the family recommendation first, led by the family health package |
| RuleAgent.TuanGetsNoRecommendation | tet_insurance_agent.py:52-63 | Tuan, who holds life cover, names no trip or distance and runs no business, gets no recommendation |
| RuleAgent.HungNeedsTravelThenBusiness | tet_insurance_agent.py:64-76 | Hung's "Business trip" fires the travel rule and his restaurant the business rule, in that order; no distance, so no motor rule |
| RuleAgent.ProductOffer | tet_insurance_agent.py:196-224 | a pitch quotes the list price; at "tet-peak", and only then, it also quotes the 30% special price rounded down |
| RuleAgent.QuickQuote | tet_insurance_agent.py:226-235 | the default five-day quote: 180,000 for the international product iff the lowered destination is one of four countries, otherwise 120,000 for the domestic product |
| RuleAgent.FirstMatch | tet_insurance_agent.py:287-291 | the first word of the list that occurs in the text, or none iff no word occurs |
| RuleAgent.FindDestination | tet_insurance_agent.py:285-291 | the title-cased destination that occurs in the lowered text with no earlier listed destination occurring, or none iff no destination occurs |
| RuleAgent.InternationalAmongDestinations | tet_insurance_agent.py:228 | of the seven recognised destinations, exactly Thailand and Singapore are international |
| RuleAgent.FoundDestinationQuote | tet_insurance_agent.py:284-294 | a found destination gets the international rate iff the message names Thailand or Singapore, although the quote receives the title-cased name |
| RuleAgent.SeasonOf | tet_insurance_agent.py:150-155 | "pre-tet" and only it is before Tet, "tet-peak" and only it is the peak, anything else is the third variant |
| RuleAgent.Wish | tet_insurance_agent.py:150-155 | each season has its own wish, and no two seasons share one |
| RuleAgent.Greeting | tet_insurance_agent.py:146-155 | the profile's own greeting, a space, then exactly the wish for the phase's season |
| RuleAgent.GreetingIdentifiesSeason | tet_insurance_agent.py:146-155 | two phases give the same greeting iff both are "pre-tet", both "tet-peak", or both something else |
| RuleAgent.FirstPitch | tet_insurance_agent.py:327-331 | none iff no rule fires; otherwise the first recommendation's reason and the offer for its first product |
| RuleAgent.Route | tet_insurance_agent.py:275-339 | the answering branch is the first keyword table with a word in the text; the default branch answers iff no table matches |
| RuleAgent.TravelReply | tet_insurance_agent.py:284-296 | a quick quote for the first destination found, and the destination question iff none is found |
| RuleAgent.PricingReply | tet_insurance_agent.py:299-305 | the offer for the first recommended product, and the product menu iff nothing is recommended |
| RuleAgent.DefaultReply | tet_insurance_agent.py:327-339 | the first recommendation's reason with its offer, and the open question iff nothing is recommended |
| RuleAgent.Dispatch | tet_insurance_agent.py:275-339 | each kind of reply is given iff its branch is the first whose table matches, and that branch's contents fill it in |
| RuleAgent.GenerateResponse | tet_insurance_agent.py:280 | as written: any message whose lowered form contains "bảo hiểm" gets the claim reply |
| RuleAgent.GenerateResponseIntended | tet_insurance_agent.py:280 | with "bảo hiểm" out of the claim table, the claim reply is given iff a real claim word occurs |
| RuleAgent.TablesAgreeWithoutInsuranceWord | tet_insurance_agent.py:280 | both claim tables give the same reply to every message that does not mention "bảo hiểm" |
| RuleAgent.SamplePricingQuestionGetsClaimReply | tet_insurance_agent.py:487 | the UI's own sample "Giá bảo hiểm xe máy bao nhiêu?" gets the claim reply for every profile and phase |
| RuleAgent.SamplePricingQuestionQuotesLinh | tet_insurance_agent.py:299-303 | with the intended table, that sample from Linh at the peak is quoted the family package at 2,450,000 instead of 3,500,000 |
| RuleAgent.FamilyPriceQuestionForLinh | tet_insurance_agent.py:280-303 | "Giá bảo hiểm gia đình bao nhiêu?" from Linh at the peak gets the claim reply as written, and the 2,450,000 family package pitch with the intended table |
| RuleAgent.AgreementBeatsRefusal | tet_insurance_agent.py:308-324 | "Có không?" contains both an agreement and a refusal word and gets the payment options, because agreement is checked first |

## Left out

- The Streamlit UI, session-state rehydration, the phase display table and `main` are user
  interface. They are not part of this model.
- The Gemini call becomes the parameter `generate`, which returns text or fails with an error
  message. The model id, API configuration, system prompt text and the prompt's fixed wording
  are not modelled. The prompt is the built context plus the user's message.
- Exceptions raised inside `_update_memory` are not modelled. In the source they fall into the
  same apology branch after part of the memory update has happened.
- `get_proactive_message` builds a context and prompt, calls the external model and returns
  its text. If the call fails, it returns its own New Year fallback with the error message.
  `init_gemini_model` configures the API key, makes a test call and returns the model, or no
  model and the error text. Both are calls into the external service; neither touches the
  memory or the knowledge base. Neither is modelled.
- `SimpleEmbedding.embed_text` (character frequencies, length, word density and keyword
  flags as a float vector) and `cosine_similarity` are floating-point arithmetic. They
  become the parameters `embed` and `similarity`, and scores are exact reals.
- `_load_customer_history` and `_load_product_knowledge` format their documents from the
  profile's fields, the product table and the phase discount, then call `add_document`.
  The knowledge base is an input to the agent; the documents' wording is not modelled.
- `datetime.now()` becomes a `now` parameter. `Memory.AddAll`, `ContextAgent.UpdateMemory`
  and `Knowledge.AddDocuments` stamp every item of one run with the same `now`, where the
  source reads the clock once per add.
- Metadata dictionaries hold strings. The claim note's `urgent: True` is the string "True".
- `config.py` holds only constants (dates, discount rates, payment methods, segment names)
  that neither agent imports. It is not part of this model.
- `handle_claim_request` and the reply templates are fixed text. Replies are tags carrying
  the values the templates show.
- Strings.Lower folds only ASCII capitals. Python's `lower()` also folds Vietnamese
  capitals such as "Đ" or "Ả"; every literal the lemmas lower has only ASCII capitals.
- Strings.Title treats only ASCII letters as letters when it finds word starts. Python's
  `title()` also counts Vietnamese letters; the destinations it is applied to are ASCII.
- RuleAgent.QuickQuote models only the default five-day duration. Other durations go
  through the float `base_price * (duration / 5)` and can round differently.
- Catalog.PeakPrice is exact integer arithmetic: `price * 70 / 100`, rounded down. Python
  computes `int(price * (1 - 0.3))` in floating point, which agrees on all six catalog
  prices (`Catalog.CatalogPeakPrices`) but is not claimed for every price.
- RuleAgent.QuickQuote computes the product type, which the source never shows in its reply.
- The rule agent's own `TET_PHASES` names and the Gemini agent's session persistence are
  display data.

## Findings

| source | as written | input that shows it | evidently intended | confidence | as-written member | corrected member |
|---|---|---|---|---|---|---|
| tet_insurance_agent.py:280 | the claim table includes "bảo hiểm" ("insurance"), which nearly every insurance question contains, and the claim branch is checked first | the UI's sample prompt "Giá bảo hiểm xe máy bao nhiêu?" (line 487), or "Giá bảo hiểm gia đình bao nhiêu?" from Linh at "tet-peak" | a pricing question reaches the pricing branch; Linh is quoted the family health package at 2,450,000 (3,500,000 less 30%) | not executed | RuleAgent.SamplePricingQuestionGetsClaimReply | RuleAgent.SamplePricingQuestionQuotesLinh |

=== FILE: catalog.dfy ===
/** The static insurance product catalog of the rule-only agent, keyed by product id.
    Prices are whole VND. The source keys the catalog by string; `ProductKey` names the six
    keys, and `ParseKey` is the string lookup that can miss. */
module Catalog {
  import opened Seqs

  datatype ProductKey =
    | TravelDomestic
    | TravelInternational
    | MotorExtension
    | FamilyHealth
    | Accident
    | LifeSavings

  datatype Product = Product(name: string, price: nat, coverage: string, duration: string)

  const AllKeys: seq<ProductKey> :=
    [TravelDomestic, TravelInternational, MotorExtension, FamilyHealth, Accident, LifeSavings]

  /** The catalog's string id of a product. */
  function KeyName(k: ProductKey): string {
    match k
    case TravelDomestic => "travel_domestic"
    case TravelInternational => "travel_international"
    case MotorExtension => "motor_extension"
    case FamilyHealth => "family_health"
    case Accident => "accident"
    case LifeSavings => "life_savings"
  }

  /** The dictionary lookup by string id: `None` where Python raises `KeyError`. */
  function ParseKey(name: string): (r: Option<ProductKey>)
    ensures r.Some? ==> KeyName(r.value) == name
  {
    if name == "travel_domestic" then Some(TravelDomestic)
    else if name == "travel_international" then Some(TravelInternational)
    else if name == "motor_extension" then Some(MotorExtension)
    else if name == "family_health" then Some(FamilyHealth)
    else if name == "accident" then Some(Accident)
    else if name == "life_savings" then Some(LifeSavings)
    else None
  }

  /** Every id the catalog hands out is found again by the lookup, and no two products
      share an id. */
  lemma KeyNameRoundTrip(k: ProductKey)
    ensures ParseKey(KeyName(k)) == Some(k)
  {
  }

  function Lookup(k: ProductKey): (p: Product)
    ensures p.price > 0
  {
    match k
    case TravelDomestic =>
      Product("Domestic Travel Insurance", 150000, "50,000,000 VND", "Per trip (up to 15 days)")
    case TravelInternational =>
      Product("International Travel Insurance", 500000, "100,000,000 VND", "Annual coverage")
    case MotorExtension =>
      Product("Motor Insurance Highway Extension", 250000, "Extended distance + passengers", "30 days")
    case FamilyHealth =>
      Product("Family Health Package", 3500000, "Up to 500,000,000 VND", "Annual")
    case Accident =>
      Product("Personal Accident Insurance", 300000, "200,000,000 VND", "Annual")
    case LifeSavings =>
      Product("Life + Savings Insurance", 5000000, "1,000,000,000 VND + Returns", "Annual premium")
  }

  /** The peak-season discount, in percent. */
  const PeakDiscountPercent := 30

  /** `int(price * (1 - 0.3))`: the price after the 30% peak discount, rounded down. */
  function PeakPrice(price: nat): (r: nat)
    ensures 100 * r <= (100 - PeakDiscountPercent) * price < 100 * r + 100
    ensures r <= price
  {
    price * (100 - PeakDiscountPercent) / 100
  }

  /** A dearer product never gets a cheaper peak price. */
  lemma PeakPriceMonotonic(p: nat, q: nat)
    requires p <= q
    ensures PeakPrice(p) <= PeakPrice(q)
  {
    assert 100 * PeakPrice(p) <= 70 * p <= 70 * q < 100 * PeakPrice(q) + 100;
  }

  /** The catalog's peak prices, e.g. the family health package at 3,500,000 sells for
      2,450,000. */
  lemma CatalogPeakPrices()
    ensures PeakPrice(Lookup(TravelDomestic).price) == 105000
    ensures PeakPrice(Lookup(TravelInternational).price) == 350000
    ensures PeakPrice(Lookup(MotorExtension).price) == 175000
    ensures PeakPrice(Lookup(FamilyHealth).price) == 2450000
    ensures PeakPrice(Lookup(Accident).price) == 210000
    ensures PeakPrice(Lookup(LifeSavings).price) == 3500000
  {
  }
}

=== FILE: context_agent.dfy ===
/** The Gemini-backed agent of tet_insurance_agent_gemini.py without the model call: the
    phase tables, the context it assembles for each prompt, the keyword tagging that turns a
    user message into memory notes, and what one turn does to memory on success and on
    failure. The language model is the parameter `generate`, which either returns text or
    fails with an error message. */
module ContextAgent {
  import opened Seqs
  import opened Strings
  import opened Profiles
  import opened Memory
  import opened Knowledge

  datatype Agent = Agent(profile: Profile, phase: string, kb: KnowledgeBase, memory: ShortTermMemory)

  /** A fresh agent: the given knowledge base and an empty ten-item memory. */
  function NewAgent(profile: Profile, phase: string, kb: KnowledgeBase): (a: Agent)
    ensures a.memory.maxItems == DefaultCapacity && a.memory.items == []
    ensures a.profile == profile && a.phase == phase && a.kb == kb
  {
    Agent(profile, phase, kb, Memory.Empty(DefaultCapacity))
  }

  // ---------------------------------------------------------------------------------------
  // Phase tables

  /** `_get_phase_discount`: 30% at the peak, 15% before Tet, 10% for any other phase. */
  function PhaseDiscount(phase: string): (r: int)
    ensures r == 30 <==> phase == "tet-peak"
    ensures r == 15 <==> phase == "pre-tet"
    ensures phase != "tet-peak" && phase != "pre-tet" ==> r == 10
  {
    if phase == "tet-peak" then 30
    else if phase == "pre-tet" then 15
    else 10
  }

  /** The peak discount is the largest, and the pre-Tet one beats every other phase. */
  lemma PhaseDiscountOrdered(phase: string)
    ensures PhaseDiscount("tet-peak") >= PhaseDiscount(phase)
    ensures phase != "tet-peak" ==> PhaseDiscount("pre-tet") >= PhaseDiscount(phase)
  {
  }

  const PreTetContext := "We are in the Pre-Tet planning phase (Mid-December to Late January). Focus on preparation and early bird offers. Customers are planning their Tet activities."
  const TetPeakContext := "We are in the Tet Holiday Peak (1 week before to 1 week after Tet). This is urgent time with flash sales and instant coverage needs. Customers are actively traveling and celebrating."
  const PostTetContext := "We are in the Post-Tet season (February onwards). Focus on follow-ups, renewals, and new year resolutions. Customers are back to normal routine."

  const KnownPhases: seq<string> := ["pre-tet", "tet-peak", "post-tet"]

  /** `_get_phase_context`: a description for each of the three known phases, and the
      empty string (the `.get` default) for any other. */
  function PhaseContext(phase: string): (r: string)
    ensures r != "" <==> phase in KnownPhases
    ensures phase == "pre-tet" ==> r == PreTetContext
    ensures phase == "tet-peak" ==> r == TetPeakContext
    ensures phase == "post-tet" ==> r == PostTetContext
  {
    if phase == "pre-tet" then PreTetContext
    else if phase == "tet-peak" then TetPeakContext
    else if phase == "post-tet" then PostTetContext
    else ""
  }

  // ---------------------------------------------------------------------------------------
  // Context assembly

  /** Only documents scoring strictly above this floor make it into the context. */
  const RelevanceFloor: real := 0.1
  const KnowledgeTopK := 5
  const RecentWindow := 5

  const KnowledgeHeader := "RELEVANT CUSTOMER HISTORY & KNOWLEDGE:"
  const MemoryHeader := "RECENT CONVERSATION:"

  predicate IsRelevant(h: Hit) {
    h.similarityScore > RelevanceFloor
  }

  function ProfileLine(p: Profile): (r: string)
    ensures IsPrefix("CUSTOMER PROFILE: " + p.name + ", " + IntToString(p.age), r)
    ensures |r| == 32 + |p.name| + |IntToString(p.age)| + |p.segment|
    ensures r[|r| - |p.segment| - 12..|r| - |p.segment|] == " years old, "
    ensures r[|r| - |p.segment|..] == p.segment
  {
    "CUSTOMER PROFILE: " + p.name + ", " + IntToString(p.age) + " years old, " + p.segment
  }

  function PhaseLine(phase: string): (r: string)
    ensures |r| == 11 + |PhaseContext(phase)|
    ensures r[..11] == "TET PHASE: " && r[11..] == PhaseContext(phase)
    ensures phase !in KnownPhases ==> r == "TET PHASE: "
  {
    "TET PHASE: " + PhaseContext(phase)
  }

  function MemoryLine(item: MemoryItem): (r: string)
    ensures IsPrefix("- " + item.kind + ": ", r)
    ensures |r| == 4 + |item.kind| + |item.content|
    ensures r[|r| - |item.content|..] == item.content
  {
    "- " + item.kind + ": " + item.content
  }

  /** One `- content` line per relevant hit, in search order. */
  function HitLines(hits: seq<Hit>): (r: seq<string>)
    ensures |r| == |Filter(hits, IsRelevant)|
    ensures forall j :: 0 <= j < |r| ==> r[j] == "- " + Filter(hits, IsRelevant)[j].doc.content
    decreases |hits|
  {
    if |hits| == 0 then []
    else
      var last := hits[|hits| - 1];
      HitLines(hits[..|hits| - 1]) + (if IsRelevant(last) then ["- " + last.doc.content] else [])
  }

  /** How many lines the knowledge block takes. */
  function KnowledgeLen(hits: seq<Hit>): nat {
    if |hits| == 0 then 0 else 1 + |Filter(hits, IsRelevant)|
  }

  /** The memory items the context quotes: the last five. */
  function Recent(m: ShortTermMemory): seq<MemoryItem> {
    LastN(m.items, RecentWindow)
  }

  /** The knowledge block: a header whenever the search found anything, even if no hit clears
      the floor, then the relevant hits. */
  function KnowledgeBlock(hits: seq<Hit>): (r: seq<string>)
    ensures |r| == KnowledgeLen(hits)
    ensures |hits| > 0 ==> r[0] == KnowledgeHeader
    ensures |hits| > 0 ==> forall j :: 0 <= j < |Filter(hits, IsRelevant)| ==>
      r[1 + j] == "- " + Filter(hits, IsRelevant)[j].doc.content
  {
    if |hits| == 0 then [] else [KnowledgeHeader] + HitLines(hits)
  }

  /** The memory block: a header and the last five items, or nothing for an empty memory. */
  function MemoryBlock(m: ShortTermMemory): (r: seq<string>)
    ensures |r| == (if |Recent(m)| == 0 then 0 else 1 + |Recent(m)|)
    ensures |Recent(m)| > 0 ==> r[0] == MemoryHeader
    ensures forall j :: 0 <= j < |Recent(m)| ==> r[1 + j] == MemoryLine(Recent(m)[j])
  {
    var recent := GetRecent(m, RecentWindow);
    if |recent| == 0 then []
    else [MemoryHeader] + seq(|recent|, i requires 0 <= i < |recent| => MemoryLine(recent[i]))
  }

  /** The lines `_build_context` joins for a given search result: profile, phase, the
      knowledge block, then the memory block. */
  function LinesFor(agent: Agent, hits: seq<Hit>): (r: seq<string>)
    ensures |r| == 2 + KnowledgeLen(hits) + |MemoryBlock(agent.memory)|
    ensures r[0] == ProfileLine(agent.profile) && r[1] == PhaseLine(agent.phase)
    ensures r[2..2 + KnowledgeLen(hits)] == KnowledgeBlock(hits)
    ensures r[2 + KnowledgeLen(hits)..] == MemoryBlock(agent.memory)
  {
    [ProfileLine(agent.profile), PhaseLine(agent.phase)] + KnowledgeBlock(hits) + MemoryBlock(agent.memory)
  }

  /** The `j`-th relevant hit is quoted on line `3 + j`, right below the knowledge header. */
  lemma LinesQuoteHit(agent: Agent, hits: seq<Hit>, j: int)
    requires 0 <= j < |Filter(hits, IsRelevant)|
    ensures var r := LinesFor(agent, hits);
      3 + j < |r| && r[2] == KnowledgeHeader && r[3 + j] == "- " + Filter(hits, IsRelevant)[j].doc.content
  {
    var r := LinesFor(agent, hits);
    var kb := KnowledgeBlock(hits);
    assert kb == r[2..2 + KnowledgeLen(hits)];
    assert r[3 + j] == kb[1 + j];
    assert r[2] == kb[0];
  }

  /** The `j`-th of the last five memory items is quoted after the memory header, which
      follows the knowledge block. */
  lemma LinesQuoteMemory(agent: Agent, hits: seq<Hit>, j: int)
    requires 0 <= j < |Recent(agent.memory)|
    ensures var r := LinesFor(agent, hits);
      && 3 + KnowledgeLen(hits) + j < |r|
      && r[2 + KnowledgeLen(hits)] == MemoryHeader
      && r[3 + KnowledgeLen(hits) + j] == MemoryLine(Recent(agent.memory)[j])
  {
    var r := LinesFor(agent, hits);
    var mb := MemoryBlock(agent.memory);
    assert mb == r[2 + KnowledgeLen(hits)..];
    assert r[3 + KnowledgeLen(hits) + j] == mb[1 + j];
    assert r[2 + KnowledgeLen(hits)] == mb[0];
  }

  /** The context lines for a message: the top five documents for it. */
  function ContextLines(agent: Agent, userMessage: string, similarity: (string, Embedding) -> real)
    : seq<string>
    requires agent.kb.Valid()
  {
    LinesFor(agent, Search(agent.kb, userMessage, similarity, KnowledgeTopK))
  }

  /** `_build_context`: the context lines joined by newlines. */
  function BuildContext(agent: Agent, userMessage: string, similarity: (string, Embedding) -> real)
    : (r: string)
    requires agent.kb.Valid()
    ensures IsPrefix(ProfileLine(agent.profile), r)
  {
    Join(ContextLines(agent, userMessage, similarity), "\n")
  }

  /** Where a relevant hit sits among the relevant hits. */
  lemma RelevantPosition(hits: seq<Hit>, h: Hit) returns (j: int)
    requires h in hits && IsRelevant(h)
    ensures 0 <= j < |Filter(hits, IsRelevant)| && Filter(hits, IsRelevant)[j] == h
  {
    var relevant := Filter(hits, IsRelevant);
    assert h in relevant;
    j :| 0 <= j < |relevant| && relevant[j] == h;
  }

  /** Every relevant hit of a search result is quoted in the joined lines. */
  lemma JoinedLinesQuoteHit(agent: Agent, hits: seq<Hit>, h: Hit)
    requires h in hits && IsRelevant(h)
    ensures Contains(Join(LinesFor(agent, hits), "\n"), "- " + h.doc.content)
  {
    var j := RelevantPosition(hits, h);
    LinesQuoteHit(agent, hits, j);
    JoinContainsText(LinesFor(agent, hits), "\n", 3 + j, "- " + h.doc.content);
  }

  /** Every one of the last five memory items is quoted in the joined lines. */
  lemma JoinedLinesQuoteMemory(agent: Agent, hits: seq<Hit>, j: int)
    requires 0 <= j < |Recent(agent.memory)|
    ensures Contains(Join(LinesFor(agent, hits), "\n"), MemoryLine(Recent(agent.memory)[j]))
  {
    LinesQuoteMemory(agent, hits, j);
    JoinContainsText(LinesFor(agent, hits), "\n", 3 + KnowledgeLen(hits) + j, MemoryLine(Recent(agent.memory)[j]));
  }

  /** Every search result above the floor is quoted in the context. */
  lemma ContextQuotesRelevantHits(agent: Agent, userMessage: string,
                                  similarity: (string, Embedding) -> real, h: Hit)
    requires agent.kb.Valid()
    requires h in Search(agent.kb, userMessage, similarity, KnowledgeTopK) && IsRelevant(h)
    ensures Contains(BuildContext(agent, userMessage, similarity), "- " + h.doc.content)
  {
    JoinedLinesQuoteHit(agent, Search(agent.kb, userMessage, similarity, KnowledgeTopK), h);
  }

  /** Every one of the last five memory items is quoted in the context. */
  lemma ContextQuotesRecentMemory(agent: Agent, userMessage: string,
                                  similarity: (string, Embedding) -> real, j: int)
    requires agent.kb.Valid()
    requires 0 <= j < |Recent(agent.memory)|
    ensures Contains(BuildContext(agent, userMessage, similarity), MemoryLine(Recent(agent.memory)[j]))
  {
    JoinedLinesQuoteMemory(agent, Search(agent.kb, userMessage, similarity, KnowledgeTopK), j);
  }

  // ---------------------------------------------------------------------------------------
  // Keyword tagging of a turn (`_update_memory`)

  /** The five keyword tables, checked in this order. */
  datatype Tag = Pricing | Travel | Claim | Agreement | Objection

  function TagIndex(t: Tag): int {
    match t
    case Pricing => 0
    case Travel => 1
    case Claim => 2
    case Agreement => 3
    case Objection => 4
  }

  function TagWords(t: Tag): seq<string> {
    match t
    case Pricing => ["giá", "price", "bao nhiêu", "cost"]
    case Travel => ["du lịch", "travel", "đi"]
    case Claim => ["tai nạn", "accident", "claim"]
    case Agreement => ["yes", "có", "ok", "được", "đồng ý"]
    case Objection => ["no", "không", "expensive", "đắt"]
  }

  /** The note each table adds. Metadata values are kept as text; the claim note's `urgent`
      flag is the string "True". */
  function TagNote(t: Tag, userMessage: string): (n: Note)
    ensures n.kind != "conversation"
  {
    match t
    case Pricing => Note("user_intent", "Asking about pricing", map["query" := userMessage])
    case Travel => Note("user_intent", "Interested in travel insurance", map["query" := userMessage])
    case Claim => Note("user_intent", "Needs claim support", map["query" := userMessage, "urgent" := "True"])
    case Agreement => Note("decision", "Customer showing interest/agreement", map["response" := userMessage])
    case Objection => Note("concern", "Customer has concerns or objections", map["response" := userMessage])
  }

  lemma TagNoteInjective(s: Tag, t: Tag, userMessage: string)
    requires TagNote(s, userMessage) == TagNote(t, userMessage)
    ensures s == t
  {
    assert TagNote(s, userMessage).content[0..2] == TagNote(t, userMessage).content[0..2];
  }

  const AllTags: seq<Tag> := [Pricing, Travel, Claim, Agreement, Objection]

  function FiresOn(lowered: string): Tag -> bool {
    (t: Tag) => ContainsAny(lowered, TagWords(t))
  }

  /** The tables that fire on the lowered message, in table order. */
  function Tags(lowered: string): (r: seq<Tag>)
    ensures |r| <= 5
    ensures forall t :: t in r <==> ContainsAny(lowered, TagWords(t))
    ensures forall a, b :: 0 <= a < b < |r| ==> TagIndex(r[a]) < TagIndex(r[b])
  {
    var r := Filter(AllTags, FiresOn(lowered));
    assert forall t :: t in AllTags;
    assert forall a, b :: 0 <= a < b < |AllTags| ==> TagIndex(AllTags[a]) < TagIndex(AllTags[b]);
    FilterKeepsIncreasing(AllTags, FiresOn(lowered), TagIndex);
    r
  }

  /** The record of the exchange itself: the message and the first 100 characters of the
      reply. */
  function ConversationNote(userMessage: string, response: string): (n: Note)
    ensures n.kind == "conversation"
    ensures IsPrefix("User: " + userMessage + " | Agent: ", n.content)
    ensures |n.content| == |"User: " + userMessage + " | Agent: "| + Min(100, |response|) + 3
    ensures n.content[|"User: " + userMessage + " | Agent: "|..|n.content| - 3]
         == response[..Min(100, |response|)]
    ensures n.content[|n.content| - 3..] == "..."
  {
    var head := "User: " + userMessage + " | Agent: ";
    var kept := PyTake(response, 100);
    var content := head + kept + "...";
    assert content[|head|..|content| - 3] == kept;
    Note("conversation", content, map[])
  }

  /** One note per firing table, in the order given. */
  function TaggedNotes(tags: seq<Tag>, userMessage: string): (r: seq<Note>)
    ensures |r| == |tags|
    ensures forall j :: 0 <= j < |r| ==> r[j] == TagNote(tags[j], userMessage)
    ensures forall t :: TagNote(t, userMessage) in r <==> t in tags
    ensures forall j :: 0 <= j < |r| ==> r[j].kind != "conversation"
  {
    var r := seq(|tags|, i requires 0 <= i < |tags| => TagNote(tags[i], userMessage));
    TaggedNotesMatch(tags, r, userMessage);
    r
  }

  /** The notes one successful turn adds: one per table that fires, in table order, then the
      conversation record. */
  function TurnNotes(userMessage: string, response: string): (r: seq<Note>)
    ensures |r| == |Tags(Lower(userMessage))| + 1 <= 6
    ensures forall j :: 0 <= j < |r| - 1 ==> r[j] == TagNote(Tags(Lower(userMessage))[j], userMessage)
    ensures r[|r| - 1] == ConversationNote(userMessage, response)
    ensures forall t :: TagNote(t, userMessage) in r <==> ContainsAny(Lower(userMessage), TagWords(t))
    ensures forall j :: 0 <= j < |r| - 1 ==> r[j].kind != "conversation"
  {
    var tagged := TaggedNotes(Tags(Lower(userMessage)), userMessage);
    var conversation := ConversationNote(userMessage, response);
    var r := tagged + [conversation];
    assert forall t :: TagNote(t, userMessage) in r <==> TagNote(t, userMessage) in tagged by {
      forall t ensures TagNote(t, userMessage) != conversation {
        assert TagNote(t, userMessage).kind != conversation.kind;
      }
    }
    r
  }

  lemma TaggedNotesMatch(tags: seq<Tag>, tagged: seq<Note>, userMessage: string)
    requires |tagged| == |tags|
    requires forall i :: 0 <= i < |tags| ==> tagged[i] == TagNote(tags[i], userMessage)
    ensures forall t :: TagNote(t, userMessage) in tagged <==> t in tags
  {
    forall t | TagNote(t, userMessage) in tagged ensures t in tags {
      var i :| 0 <= i < |tagged| && tagged[i] == TagNote(t, userMessage);
      TagNoteInjective(tags[i], t, userMessage);
    }
    forall t | t in tags ensures TagNote(t, userMessage) in tagged {
      var i :| 0 <= i < |tags| && tags[i] == t;
      assert tagged[i] == TagNote(t, userMessage);
    }
  }

  /** `_update_memory`: the turn's notes go through `add` one after another. */
  function UpdateMemory(m: ShortTermMemory, userMessage: string, response: string, now: string)
    : (r: ShortTermMemory)
    ensures r.maxItems == m.maxItems
    ensures 1 <= m.maxItems && |m.items| <= m.maxItems ==>
      r.items == LastN(m.items + StampAll(TurnNotes(userMessage, response), now), m.maxItems)
  {
    AddAll(m, TurnNotes(userMessage, response), now)
  }

  /** After a turn the newest memory item is the conversation record, and a bounded memory
      stays within its bound. */
  lemma UpdateMemoryEndsWithConversation(m: ShortTermMemory, userMessage: string, response: string, now: string)
    requires 1 <= m.maxItems && |m.items| <= m.maxItems
    ensures var r := UpdateMemory(m, userMessage, response, now);
      && 1 <= |r.items| <= m.maxItems
      && r.items[|r.items| - 1] == Stamp(ConversationNote(userMessage, response), now)
  {
    var notes := TurnNotes(userMessage, response);
    var all := m.items + StampAll(notes, now);
    assert all[|all| - 1] == Stamp(notes[|notes| - 1], now);
  }

  /** While the memory has room, a turn grows it by one to six items and keeps every older
      item in place. */
  lemma UpdateMemoryWithRoom(m: ShortTermMemory, userMessage: string, response: string, now: string)
    requires 1 <= m.maxItems && |m.items| + 6 <= m.maxItems
    ensures var r := UpdateMemory(m, userMessage, response, now);
      && |m.items| + 1 <= |r.items| <= |m.items| + 6
      && r.items[..|m.items|] == m.items
  {
    var notes := TurnNotes(userMessage, response);
    var all := m.items + StampAll(notes, now);
    assert LastN(all, m.maxItems) == all;
    assert all[..|m.items|] == m.items;
  }

  // ---------------------------------------------------------------------------------------
  // One turn (`generate_response`)

  /** What the language model is asked: the assembled context and the user's message. The
      fixed system prompt around them is not part of this model. */
  datatype Prompt = Prompt(context: string, userMessage: string)

  datatype Generation = Generated(text: string) | GenerationFailed(error: string)

  datatype Turn = Turn(reply: string, agent: Agent)

  const ApologyPrefix := "Xin lỗi, tôi gặp chút vấn đề kỹ thuật. Bạn có thể thử lại không? (Error: "

  /** The prompt sent to the model: the built context and the user's message. */
  function PromptFor(agent: Agent, userMessage: string, similarity: (string, Embedding) -> real): (r: Prompt)
    requires agent.kb.Valid()
    ensures r.userMessage == userMessage
    ensures IsPrefix(ProfileLine(agent.profile), r.context)
  {
    Prompt(BuildContext(agent, userMessage, similarity), userMessage)
  }

  /** `generate_response`: on success the reply is the generated text and the turn is
      recorded in memory; on failure the reply is the apology carrying the error and nothing
      changes. Profile, phase and knowledge base are never touched. */
  function GenerateResponse(agent: Agent, userMessage: string, similarity: (string, Embedding) -> real,
                            generate: Prompt -> Generation, now: string): (t: Turn)
    requires agent.kb.Valid()
    ensures t.agent.profile == agent.profile && t.agent.phase == agent.phase && t.agent.kb == agent.kb
    ensures generate(PromptFor(agent, userMessage, similarity)).GenerationFailed? ==>
      && t.agent == agent
      && t.reply == ApologyPrefix + generate(PromptFor(agent, userMessage, similarity)).error + ")"
    ensures generate(PromptFor(agent, userMessage, similarity)).Generated? ==>
      && t.reply == generate(PromptFor(agent, userMessage, similarity)).text
      && t.agent.memory
         == UpdateMemory(agent.memory, userMessage, generate(PromptFor(agent, userMessage, similarity)).text, now)
  {
    match generate(PromptFor(agent, userMessage, similarity))
    case Generated(text) =>
      Turn(text, agent.(memory := UpdateMemory(agent.memory, userMessage, text, now)))
    case GenerationFailed(error) =>
      Turn(ApologyPrefix + error + ")", agent)
  }
}

=== FILE: knowledge.dfy ===
/** The knowledge base of the Gemini-backed agent: an append-only list of documents with a
    parallel list of their embeddings, searched by similarity to a query.
    The embedding function and the similarity measure are parameters: `embed` turns text
    into an `Embedding`, and `similarity(query, e)` scores a stored embedding against the
    query text. Scores are exact reals; the ranking only compares them. */
module Knowledge {
  import opened Seqs

  datatype Embedding = Embedding(features: seq<real>)

  datatype Document = Document(
    id: string,
    content: string,
    metadata: map<string, string>,
    timestamp: string)

  /** A search result: the stored document plus its `similarity_score`. */
  datatype Hit = Hit(doc: Document, similarityScore: real)

  /** A document as a caller hands it to `add_document`. */
  datatype DocSpec = DocSpec(id: string, content: string, metadata: map<string, string>)

  datatype KnowledgeBase = KnowledgeBase(documents: seq<Document>, embeddings: seq<Embedding>) {
    /** One embedding per document. */
    predicate Valid() {
      |documents| == |embeddings|
    }

    /** The i-th embedding is `embed` of the i-th document's content. */
    predicate EmbeddedBy(embed: string -> Embedding) {
      Valid() && forall i :: 0 <= i < |documents| ==> embeddings[i] == embed(documents[i].content)
    }
  }

  function Empty(): (kb: KnowledgeBase)
    ensures kb.Valid() && kb.documents == []
  {
    KnowledgeBase([], [])
  }

  function Stored(d: DocSpec, now: string): Document {
    Document(d.id, d.content, d.metadata, now)
  }

  /** `add_document`: appends exactly one document and its embedding, whatever its id, so
      the two lists stay the same length. */
  function AddDocument(kb: KnowledgeBase, d: DocSpec, now: string, embed: string -> Embedding)
    : (r: KnowledgeBase)
    ensures kb.Valid() ==> r.Valid()
    ensures kb.EmbeddedBy(embed) ==> r.EmbeddedBy(embed)
    ensures |r.documents| == |kb.documents| + 1 && |r.embeddings| == |kb.embeddings| + 1
    ensures r.documents[..|kb.documents|] == kb.documents
    ensures r.documents[|kb.documents|] == Stored(d, now)
    ensures r.embeddings[..|kb.embeddings|] == kb.embeddings
    ensures r.embeddings[|kb.embeddings|] == embed(d.content)
  {
    KnowledgeBase(kb.documents + [Stored(d, now)], kb.embeddings + [embed(d.content)])
  }

  /** A run of `add_document` calls, in order. */
  function AddDocuments(kb: KnowledgeBase, ds: seq<DocSpec>, now: string, embed: string -> Embedding)
    : (r: KnowledgeBase)
    ensures kb.Valid() ==> r.Valid()
    ensures kb.EmbeddedBy(embed) ==> r.EmbeddedBy(embed)
    decreases |ds|
  {
    if |ds| == 0 then kb
    else AddDocument(AddDocuments(kb, ds[..|ds| - 1], now, embed), ds[|ds| - 1], now, embed)
  }

  /** `get_all_documents`. */
  function GetAllDocuments(kb: KnowledgeBase): seq<Document> {
    kb.documents
  }

  /** Documents come back in the order they were added, one per call, and the embeddings
      grow in step: the old ones untouched, then one per added document. */
  lemma {:induction false} DocumentsInInsertionOrder(
    kb: KnowledgeBase, ds: seq<DocSpec>, now: string, embed: string -> Embedding)
    ensures GetAllDocuments(AddDocuments(kb, ds, now, embed))
         == kb.documents + seq(|ds|, i requires 0 <= i < |ds| => Stored(ds[i], now))
    ensures AddDocuments(kb, ds, now, embed).embeddings
         == kb.embeddings + seq(|ds|, i requires 0 <= i < |ds| => embed(ds[i].content))
    decreases |ds|
  {
    var all := seq(|ds|, i requires 0 <= i < |ds| => Stored(ds[i], now));
    var allE := seq(|ds|, i requires 0 <= i < |ds| => embed(ds[i].content));
    if |ds| == 0 {
      assert all == [] && allE == [];
    } else {
      var init := ds[..|ds| - 1];
      DocumentsInInsertionOrder(kb, init, now, embed);
      var prev := seq(|init|, i requires 0 <= i < |init| => Stored(init[i], now));
      var prevE := seq(|init|, i requires 0 <= i < |init| => embed(init[i].content));
      assert all == prev + [Stored(ds[|ds| - 1], now)];
      assert allE == prevE + [embed(ds[|ds| - 1].content)];
    }
  }

  function HasId(id: string): Document -> bool {
    (d: Document) => d.id == id
  }

  /** Re-adding an id does not replace the earlier document: the id is stored once more. */
  lemma DuplicateIdIsKept(kb: KnowledgeBase, d: DocSpec, now: string, embed: string -> Embedding)
    ensures |Filter(AddDocument(kb, d, now, embed).documents, HasId(d.id))|
         == |Filter(kb.documents, HasId(d.id))| + 1
  {
    FilterAppend(kb.documents, [Stored(d, now)], HasId(d.id));
  }

  /** The score of every stored document against the query. */
  function Scores(kb: KnowledgeBase, query: string, similarity: (string, Embedding) -> real)
    : (r: seq<real>)
    ensures |r| == |kb.embeddings|
    ensures forall i :: 0 <= i < |r| ==> r[i] == similarity(query, kb.embeddings[i])
  {
    seq(|kb.embeddings|, i requires 0 <= i < |kb.embeddings| => similarity(query, kb.embeddings[i]))
  }

  /** Position `a` comes before position `b` in a stable descending sort: a higher score, or
      an equal score and an earlier position. */
  predicate RanksBefore(scores: seq<real>, a: nat, b: nat)
    requires a < |scores| && b < |scores|
  {
    scores[a] > scores[b] || (scores[a] == scores[b] && a < b)
  }

  predicate Ranked(scores: seq<real>, order: seq<nat>) {
    && (forall k :: 0 <= k < |order| ==> order[k] < |scores|)
    && (forall a, b :: 0 <= a < b < |order| ==> RanksBefore(scores, order[a], order[b]))
  }

  /** Insert position `i`, which is later than every position already in `order`, after all
      the entries that score at least as much. */
  function InsertByScore(scores: seq<real>, order: seq<nat>, i: nat): (r: seq<nat>)
    requires i < |scores| && Ranked(scores, order)
    requires forall k :: 0 <= k < |order| ==> order[k] < i
    ensures |r| == |order| + 1
    ensures forall x :: x in r <==> x in order || x == i
    ensures Ranked(scores, r)
    decreases |order|
  {
    if |order| == 0 then [i]
    else if scores[order[0]] >= scores[i] then
      var rest := InsertByScore(scores, order[1..], i);
      assert forall y :: y in rest ==> RanksBefore(scores, order[0], y) by {
        forall y | y in rest ensures RanksBefore(scores, order[0], y) {
          if y != i {
            var b :| 0 <= b < |order[1..]| && order[1..][b] == y;
            assert order[b + 1] == y;
          }
        }
      }
      [order[0]] + rest
    else
      [i] + order
  }

  /** `similarities.sort(key=score, reverse=True)` over positions `0 .. n-1`: every position
      exactly once, by non-increasing score, equal scores in insertion order. */
  function Rank(scores: seq<real>, n: nat): (r: seq<nat>)
    requires n <= |scores|
    ensures |r| == n
    ensures forall k :: 0 <= k < |r| ==> r[k] < n
    ensures forall k :: 0 <= k < n <==> k in r
    ensures Ranked(scores, r)
    decreases n
  {
    if n == 0 then []
    else
      var r := InsertByScore(scores, Rank(scores, n - 1), n - 1);
      assert forall k :: 0 <= k < |r| ==> r[k] in r;
      r
  }

  /** A prefix of a ranking is a ranking. */
  lemma RankedPrefix(scores: seq<real>, order: seq<nat>, n: nat)
    requires Ranked(scores, order) && n <= |order|
    ensures Ranked(scores, order[..n])
  {
    var p := order[..n];
    assert forall k :: 0 <= k < |p| ==> p[k] == order[k];
  }

  /** Every position in a prefix of a full ranking ranks before every position left out of
      that prefix. */
  lemma RankedPrefixBeatsRest(scores: seq<real>, ranking: seq<nat>, n: nat)
    requires Ranked(scores, ranking) && n <= |ranking|
    requires forall k :: 0 <= k < |scores| ==> k in ranking
    ensures forall a, j :: 0 <= a < n && 0 <= j < |scores| && j !in ranking[..n] ==>
      RanksBefore(scores, ranking[a], j)
  {
    forall a, j | 0 <= a < n && 0 <= j < |scores| && j !in ranking[..n]
      ensures RanksBefore(scores, ranking[a], j)
    {
      forall q | 0 <= q < n ensures ranking[q] != j {
        assert ranking[..n][q] == ranking[q];
      }
      assert j in ranking;
      var p :| 0 <= p < |ranking| && ranking[p] == j;
      assert a < p;
    }
  }

  /** The stored positions `search` reports, best first: `[]` for an empty store, otherwise
      the first `top_k` of the stable descending ranking (Python's `[:top_k]`). Equal scores
      keep insertion order, no position appears twice, and every reported position ranks
      before every position left out, so at the cut-off an equal score loses to an earlier
      document. */
  function SearchOrder(kb: KnowledgeBase, query: string, similarity: (string, Embedding) -> real, topK: int)
    : (order: seq<nat>)
    requires kb.Valid()
    ensures |kb.documents| == 0 ==> order == []
    ensures topK >= 0 ==> |order| == Min(topK, |kb.documents|)
    ensures |order| <= |kb.documents|
    ensures Ranked(Scores(kb, query, similarity), order)
    ensures forall a, j :: 0 <= a < |order| && 0 <= j < |kb.documents| && j !in order ==>
      RanksBefore(Scores(kb, query, similarity), order[a], j)
  {
    if |kb.documents| == 0 then []
    else
      var scores := Scores(kb, query, similarity);
      var ranking := Rank(scores, |scores|);
      var order := PyTake(ranking, topK);
      RankedPrefix(scores, ranking, |order|);
      RankedPrefixBeatsRest(scores, ranking, |order|);
      order
  }

  /** A ranking never lists a position twice. */
  lemma RankedIsDistinct(scores: seq<real>, order: seq<nat>, a: int, b: int)
    requires Ranked(scores, order) && 0 <= a < b < |order|
    ensures order[a] != order[b]
  {
    assert RanksBefore(scores, order[a], order[b]);
  }

  /** `search(query, top_k)`: one result per reported position, each the stored document
      with its own score, by non-increasing score. */
  function Search(kb: KnowledgeBase, query: string, similarity: (string, Embedding) -> real, topK: int)
    : (r: seq<Hit>)
    requires kb.Valid()
    ensures |r| == |SearchOrder(kb, query, similarity, topK)|
    ensures forall a :: 0 <= a < |r| ==> r[a] == HitAt(kb, query, similarity, SearchOrder(kb, query, similarity, topK)[a])
    ensures |kb.documents| == 0 ==> r == []
    ensures topK >= 0 ==> |r| == Min(topK, |kb.documents|)
    ensures forall a, b :: 0 <= a < b < |r| ==> r[a].similarityScore >= r[b].similarityScore
  {
    var order := SearchOrder(kb, query, similarity, topK);
    var scores := Scores(kb, query, similarity);
    var r := seq(|order|, a requires 0 <= a < |order| => HitAt(kb, query, similarity, order[a]));
    assert forall a, b :: 0 <= a < b < |order| ==> RanksBefore(scores, order[a], order[b]);
    r
  }

  function HitAt(kb: KnowledgeBase, query: string, similarity: (string, Embedding) -> real, j: nat)
    : Hit
    requires kb.Valid() && j < |kb.documents|
  {
    Hit(kb.documents[j], similarity(query, kb.embeddings[j]))
  }

  /** Every stored document is either among the results or scores no higher than the
      weakest result: the search returns a top-`k` set. */
  lemma SearchIsTopK(kb: KnowledgeBase, query: string, similarity: (string, Embedding) -> real,
                     topK: int, j: nat)
    requires kb.Valid() && j < |kb.documents|
    requires |Search(kb, query, similarity, topK)| > 0
    ensures var r := Search(kb, query, similarity, topK);
      || HitAt(kb, query, similarity, j) in r
      || similarity(query, kb.embeddings[j]) <= r[|r| - 1].similarityScore
  {
    var r := Search(kb, query, similarity, topK);
    var scores := Scores(kb, query, similarity);
    var ranking := Rank(scores, |scores|);
    var order := SearchOrder(kb, query, similarity, topK);
    assert order == ranking[..|order|];
    assert j in ranking;
    var p :| 0 <= p < |ranking| && ranking[p] == j;
    if p < |order| {
      assert r[p] == HitAt(kb, query, similarity, j);
    } else {
      assert RanksBefore(scores, ranking[|order| - 1], ranking[p]);
    }
  }
}

=== FILE: memory.dfy ===
/** The short-term conversation memory of the Gemini-backed agent: a typed event log that
    keeps at most `maxItems` of the most recently added items, evicting the oldest first.
    The clock is a parameter: each added item carries the timestamp its caller supplies. */
module Memory {
  import opened Seqs
  import opened Strings

  datatype MemoryItem = MemoryItem(
    kind: string,
    content: string,
    metadata: map<string, string>,
    timestamp: string)

  datatype ShortTermMemory = ShortTermMemory(maxItems: int, items: seq<MemoryItem>)

  /** An item as a caller describes it, before the memory stamps it with the time. */
  datatype Note = Note(kind: string, content: string, metadata: map<string, string>)

  const DefaultCapacity := 10

  /** The types `Summarize` reports, in the order it reports them. */
  const SummaryKinds: seq<string> := ["user_intent", "product_interest", "concern", "decision"]

  const NoHistoryText := "No recent conversation history."
  const ContextAvailableText := "Recent conversation context available."

  function Empty(maxItems: int): (m: ShortTermMemory)
    ensures m.items == [] && m.maxItems == maxItems
  {
    ShortTermMemory(maxItems, [])
  }

  function Stamp(n: Note, now: string): MemoryItem {
    MemoryItem(n.kind, n.content, n.metadata, now)
  }

  function StampAll(ns: seq<Note>, now: string): (r: seq<MemoryItem>)
    ensures |r| == |ns|
    ensures forall i :: 0 <= i < |ns| ==> r[i] == Stamp(ns[i], now)
  {
    seq(|ns|, i requires 0 <= i < |ns| => Stamp(ns[i], now))
  }

  /** `ShortTermMemory.add`: append, then keep only the last `maxItems` items.
      With a capacity of at least one the buffer never exceeds it, holds exactly the
      newest `maxItems` items of the old buffer followed by the new one, and the new item
      comes last. Python's `items[-0:]` is the whole list, so capacity 0 keeps everything. */
  function Add(m: ShortTermMemory, n: Note, now: string): (r: ShortTermMemory)
    ensures r.maxItems == m.maxItems
    ensures m.maxItems >= 1 ==> |r.items| <= m.maxItems
    ensures m.maxItems >= 1 ==> r.items == LastN(m.items + [Stamp(n, now)], m.maxItems)
    ensures m.maxItems >= 1 ==> r.items[|r.items| - 1] == Stamp(n, now)
    ensures m.maxItems == 0 ==> r.items == m.items + [Stamp(n, now)]
  {
    var items := m.items + [Stamp(n, now)];
    if |items| > m.maxItems then m.(items := PyDrop(items, -m.maxItems))
    else m.(items := items)
  }

  /** A sequence of `add` calls, in order, all stamped with the same time. FIFO eviction:
      from a buffer within its capacity the result is exactly the last `maxItems` of the old
      items followed by the added ones, in order. */
  function AddAll(m: ShortTermMemory, ns: seq<Note>, now: string): (r: ShortTermMemory)
    ensures r.maxItems == m.maxItems
    ensures m.maxItems >= 1 && |m.items| <= m.maxItems ==>
      r.items == LastN(m.items + StampAll(ns, now), m.maxItems)
    decreases |ns|
  {
    if |ns| == 0 then
      assert m.items + StampAll(ns, now) == m.items;
      m
    else
      var prev := AddAll(m, ns[..|ns| - 1], now);
      AddAllStep(m, ns, now, prev);
      Add(prev, ns[|ns| - 1], now)
  }

  /** One more add extends the FIFO equation of `AddAll` by the last note. */
  lemma AddAllStep(m: ShortTermMemory, ns: seq<Note>, now: string, prev: ShortTermMemory)
    requires |ns| > 0 && prev.maxItems == m.maxItems
    requires m.maxItems >= 1 && |m.items| <= m.maxItems ==>
      prev.items == LastN(m.items + StampAll(ns[..|ns| - 1], now), m.maxItems)
    ensures m.maxItems >= 1 && |m.items| <= m.maxItems ==>
      Add(prev, ns[|ns| - 1], now).items == LastN(m.items + StampAll(ns, now), m.maxItems)
  {
    if m.maxItems >= 1 && |m.items| <= m.maxItems {
      var before := m.items + StampAll(ns[..|ns| - 1], now);
      var x := Stamp(ns[|ns| - 1], now);
      LastNAppend(before, x, m.maxItems);
      StampAllSnoc(ns, now);
      assert m.items + StampAll(ns, now) == before + [x];
    }
  }

  /** Keeping the last `n` of a list, appending, and keeping the last `n` again is the same
      as appending first. */
  lemma LastNAppend(s: seq<MemoryItem>, x: MemoryItem, n: int)
    ensures n >= 1 ==> LastN(LastN(s, n) + [x], n) == LastN(s + [x], n)
  {
  }

  lemma StampAllSnoc(ns: seq<Note>, now: string)
    requires |ns| > 0
    ensures StampAll(ns, now) == StampAll(ns[..|ns| - 1], now) + [Stamp(ns[|ns| - 1], now)]
  {
  }

  /** Once the buffer is full, each further add evicts exactly the oldest item. */
  lemma AddToFullEvictsOldest(m: ShortTermMemory, n: Note, now: string)
    requires m.maxItems >= 1 && |m.items| == m.maxItems
    ensures Add(m, n, now).items == m.items[1..] + [Stamp(n, now)]
  {
  }

  /** With capacity 0 the `[-0:]` slice keeps the whole list, so the bound fails. */
  lemma ZeroCapacityKeepsEverything(m: ShortTermMemory, n: Note, now: string)
    requires m.maxItems == 0
    ensures |Add(m, n, now).items| == |m.items| + 1 > m.maxItems
  {
  }

  /** `get_recent(n)`: `items[-n:]`, or `[]` for an empty buffer. For `n >= 1` these are the
      last `min(n, len)` items in insertion order; `n == 0` gives the whole buffer, and a
      negative `n` drops the first `-n` items (the Python slice rules). */
  function GetRecent(m: ShortTermMemory, n: int): (r: seq<MemoryItem>)
    ensures |m.items| == 0 ==> r == []
    ensures n >= 1 ==> r == LastN(m.items, n)
    ensures n == 0 ==> r == m.items
    ensures n < 0 ==> r == m.items[Min(-n, |m.items|)..]
  {
    if |m.items| > 0 then PyDrop(m.items, -n) else []
  }

  /** The test `item['type'] == kind`. */
  function OfKind(kind: string): MemoryItem -> bool {
    (x: MemoryItem) => x.kind == kind
  }

  /** `get_by_type`: exactly the items of that type, in insertion order. */
  function GetByType(m: ShortTermMemory, kind: string): (r: seq<MemoryItem>)
    ensures forall x :: x in r <==> x in m.items && x.kind == kind
  {
    Filter(m.items, OfKind(kind))
  }

  /** Adding an item extends each type's list by that item if it has the type, and leaves it
      unchanged otherwise: so `get_by_type` lists keep insertion order. */
  lemma GetByTypeAfterAppend(items: seq<MemoryItem>, x: MemoryItem, kind: string)
    ensures GetByType(ShortTermMemory(0, items + [x]), kind)
         == GetByType(ShortTermMemory(0, items), kind) + (if x.kind == kind then [x] else [])
  {
    FilterAppend(items, [x], OfKind(kind));
  }

  /** `items[i]` has the type `kind` and no later item does. */
  predicate IsLatestOfKind(items: seq<MemoryItem>, kind: string, i: int) {
    0 <= i < |items| && items[i].kind == kind
    && forall j :: i < j < |items| ==> items[j].kind != kind
  }

  /** `get_by_type(kind)[-1]`, when there is one. It is the most recently added item of that
      type. */
  function Latest(m: ShortTermMemory, kind: string): (r: Option<MemoryItem>)
    ensures r.None? <==> forall i :: 0 <= i < |m.items| ==> m.items[i].kind != kind
    ensures r.Some? ==> exists i :: IsLatestOfKind(m.items, kind, i) && m.items[i] == r.value
  {
    var xs := GetByType(m, kind);
    if |xs| == 0 then None
    else
      LatestOfKindWitness(m, kind);
      Some(xs[|xs| - 1])
  }

  lemma LatestOfKindWitness(m: ShortTermMemory, kind: string)
    requires |GetByType(m, kind)| > 0
    ensures exists i :: IsLatestOfKind(m.items, kind, i)
                        && m.items[i] == GetByType(m, kind)[|GetByType(m, kind)| - 1]
  {
    var items := m.items;
    var xs := GetByType(m, kind);
    var i := FilterLastIsLatest(items, OfKind(kind));
    forall j | i < j < |items| ensures items[j].kind != kind {
      assert !OfKind(kind)(items[j]);
    }
    assert IsLatestOfKind(m.items, kind, i) && m.items[i] == xs[|xs| - 1];
  }

  function HasItemOfKind(m: ShortTermMemory): string -> bool {
    (k: string) => Latest(m, k).Some?
  }

  /** The summary part of a type that has an item: `"<type>: <content of its latest item>"`. */
  function SummaryPart(m: ShortTermMemory, kind: string): string
    requires Latest(m, kind).Some?
  {
    kind + ": " + Latest(m, kind).value.content
  }

  /** One summary part per type of `kinds` that has an item, in the order of `kinds`. */
  function SummaryParts(m: ShortTermMemory, kinds: seq<string>): (r: seq<string>)
    ensures |r| == |Filter(kinds, HasItemOfKind(m))|
    ensures forall j :: 0 <= j < |r| ==>
      Latest(m, Filter(kinds, HasItemOfKind(m))[j]).Some?
      && r[j] == SummaryPart(m, Filter(kinds, HasItemOfKind(m))[j])
    decreases |kinds|
  {
    if |kinds| == 0 then []
    else
      var k := kinds[|kinds| - 1];
      SummaryParts(m, kinds[..|kinds| - 1]) + (if Latest(m, k).Some? then [SummaryPart(m, k)] else [])
  }

  /** `summarize`: the no-history text exactly when the buffer is empty; otherwise, for each
      of `user_intent, product_interest, concern, decision` that has an item, the latest
      such item as `"<type>: <content>"`, joined by `" | "`; and the context-available text
      exactly when the buffer holds items but none of those four types. */
  function Summarize(m: ShortTermMemory): (r: string)
    ensures r == NoHistoryText <==> |m.items| == 0
    ensures r == ContextAvailableText <==>
      |m.items| > 0 && forall k :: k in SummaryKinds ==> Latest(m, k).None?
    ensures forall k :: k in SummaryKinds && Latest(m, k).Some? ==>
      Contains(r, k + ": " + Latest(m, k).value.content)
    ensures r != NoHistoryText && r != ContextAvailableText ==> r == Join(SummaryParts(m, SummaryKinds), " | ")
  {
    if |m.items| == 0 then NoHistoryText
    else
      var parts := SummaryParts(m, SummaryKinds);
      if |parts| == 0 then ContextAvailableText
      else
        SummaryMentionsEachKind(m, parts);
        Join(parts, " | ")
  }

  lemma SummaryMentionsEachKind(m: ShortTermMemory, parts: seq<string>)
    requires parts == SummaryParts(m, SummaryKinds) && |parts| > 0
    ensures Join(parts, " | ") != NoHistoryText && Join(parts, " | ") != ContextAvailableText
    ensures forall k :: k in SummaryKinds && Latest(m, k).Some? ==>
      Contains(Join(parts, " | "), k + ": " + Latest(m, k).value.content)
  {
    SummaryStartsWithKind(m, parts);
    forall k | k in SummaryKinds && Latest(m, k).Some?
      ensures Contains(Join(parts, " | "), k + ": " + Latest(m, k).value.content)
    {
      SummaryMentionsKind(m, parts, k);
    }
  }

  lemma SummaryKindStartsLowercase(k: string)
    requires k in SummaryKinds
    ensures |k| > 0 && 'a' <= k[0] <= 'z'
  {
  }

  /** The summary opens with a type name, so it is neither fixed text. */
  lemma SummaryStartsWithKind(m: ShortTermMemory, parts: seq<string>)
    requires parts == SummaryParts(m, SummaryKinds) && |parts| > 0
    ensures Join(parts, " | ") != NoHistoryText && Join(parts, " | ") != ContextAvailableText
  {
    var present := Filter(SummaryKinds, HasItemOfKind(m));
    var r := Join(parts, " | ");
    var k0 := present[0];
    SummaryKindStartsLowercase(k0);
    assert parts[0] == SummaryPart(m, k0);
    assert IsPrefix(parts[0], r);
    assert r[0] == k0[0];
    assert NoHistoryText[0] == 'N' && ContextAvailableText[0] == 'R';
  }

  lemma SummaryMentionsKind(m: ShortTermMemory, parts: seq<string>, k: string)
    requires parts == SummaryParts(m, SummaryKinds)
    requires k in SummaryKinds && Latest(m, k).Some?
    ensures Contains(Join(parts, " | "), k + ": " + Latest(m, k).value.content)
  {
    var present := Filter(SummaryKinds, HasItemOfKind(m));
    assert k in present;
    var j :| 0 <= j < |present| && present[j] == k;
    assert parts[j] == SummaryPart(m, k) == k + ": " + Latest(m, k).value.content;
    JoinContainsParts(parts, " | ", j);
  }

  /** `clear`: an empty buffer of the same capacity, which summarises as having no history. */
  function Clear(m: ShortTermMemory): (r: ShortTermMemory)
    ensures r.maxItems == m.maxItems && r.items == []
    ensures Summarize(r) == NoHistoryText
  {
    m.(items := [])
  }

  /** After `clear` the history restarts: the next add leaves exactly the new note for any
      capacity of zero or more. A negative capacity `c` makes `items[-c:]` skip the first
      `-c` items, so the note is dropped too. */
  lemma AddAfterClear(m: ShortTermMemory, n: Note, now: string)
    ensures m.maxItems >= 0 ==> Add(Clear(m), n, now).items == [Stamp(n, now)]
    ensures m.maxItems < 0 ==> Add(Clear(m), n, now).items == []
  {
    AddToEmpty(Clear(m), n, now);
  }

  lemma AddToEmpty(e: ShortTermMemory, n: Note, now: string)
    requires e.items == []
    ensures e.maxItems >= 0 ==> Add(e, n, now).items == [Stamp(n, now)]
    ensures e.maxItems < 0 ==> Add(e, n, now).items == []
  {
    var x := Stamp(n, now);
    assert e.items + [x] == [x];
    if e.maxItems >= 1 {
      assert LastN([x], e.maxItems) == [x];
    } else if e.maxItems < 0 {
      assert PyDrop([x], -e.maxItems) == [];
    }
  }

  /** So the most recent item after `clear` and one add is that add's note. */
  lemma RecentAfterClear(m: ShortTermMemory, n: Note, now: string)
    ensures m.maxItems >= 0 ==> GetRecent(Add(Clear(m), n, now), 1) == [Stamp(n, now)]
    ensures m.maxItems < 0 ==> GetRecent(Add(Clear(m), n, now), 1) == []
  {
    AddAfterClear(m, n, now);
    assert LastN([Stamp(n, now)], 1) == [Stamp(n, now)];
  }
}

=== FILE: profiles.dfy ===
/** The customer profile both agents read, and the four demo customers of the rule-only agent.
    A profile is a Python dict read with `.get(key, default)`; every optional key is a field
    here that holds the `.get` default when the key is absent: `has_travel` false,
    `family_size` 0, `business` "" (Python treats the empty string as false) and
    `travel_history` the empty list. */
module Profiles {

  datatype Profile = Profile(
    name: string,
    age: int,
    segment: string,
    tone: string,
    greeting: string,
    hasMotor: bool,
    hasHealth: bool,
    hasLife: bool,
    hasTravel: bool,
    income: string,
    travelHistory: seq<string>,
    tetPlans: string,
    familySize: int,
    business: string)

  /** The young professional: drives, plans a 300 km trip home. */
  const Minh := Profile("Minh Nguyen", 28, "Young Professional", "casual", "Chào Minh! 🧧",
    true, false, false, false, "high", ["Da Nang", "Phu Quoc"],
    "Traveling home to Vinh (300km)", 0, "")

  /** The family with kids: four people, no life cover. */
  const Linh := Profile("Linh Tran", 35, "Family with Kids", "friendly",
    "Chúc mừng năm mới chị Linh!",
    true, true, false, false, "medium", [], "Hosting family gathering", 4, "")

  /** The senior: already holds motor, health and life cover. */
  const Tuan := Profile("Tuấn Lê", 55, "Senior/Retiree", "formal",
    "Kính chúc quý khách năm mới an khang thịnh vượng",
    true, true, true, false, "medium", [], "Visiting children in Saigon", 0, "")

  /** The business owner: runs a restaurant, plans a business trip. */
  const Hung := Profile("Hùng Pham", 42, "Small Business Owner", "professional",
    "Chào anh Hùng! Chúc năm mới phát tài phát lộc!",
    true, true, false, false, "high", [], "Business trip to Hanoi", 0, "Restaurant")
}

=== FILE: rule_agent.dfy ===
/** The rule-only agent of tet_insurance_agent.py: needs analysis over a customer profile,
    phase pricing of catalog products, quick travel quotes, the greeting, and the
    first-match-wins reply dispatcher. Replies are modelled as tags carrying the values the
    source formats into its reply templates (prices, product, destination, reason); the
    template text itself is not modelled. */
module RuleAgent {
  import opened Seqs
  import opened Strings
  import opened Profiles
  import opened Catalog

  // ---------------------------------------------------------------------------------------
  // Needs analysis (`analyze_needs`)

  /** The four rules, evaluated in this order. */
  datatype Need = TravelNeed | FamilyNeed | MotorNeed | BusinessNeed

  datatype Recommendation = Recommendation(need: Need, reason: string, products: seq<ProductKey>)

  const AllNeeds: seq<Need> := [TravelNeed, FamilyNeed, MotorNeed, BusinessNeed]

  function NeedIndex(n: Need): int {
    match n
    case TravelNeed => 0
    case FamilyNeed => 1
    case MotorNeed => 2
    case BusinessNeed => 3
  }

  /** When each rule fires. The travel test is case-sensitive for "Traveling" and
      case-insensitive for "trip"; a missing `tet_plans` reads as "". */
  predicate Fires(p: Profile, n: Need) {
    match n
    case TravelNeed =>
      (Contains(p.tetPlans, "Traveling") || Contains(Lower(p.tetPlans), "trip")) && !p.hasTravel
    case FamilyNeed => p.familySize > 2 && !p.hasLife
    case MotorNeed => p.hasMotor && Contains(Lower(p.tetPlans), "km")
    case BusinessNeed => p.business != ""
  }

  function FiresFor(p: Profile): Need -> bool {
    (n: Need) => Fires(p, n)
  }

  /** The recommendation a rule adds: its reason and its fixed pair of products. */
  function RuleFor(p: Profile, n: Need): (r: Recommendation)
    ensures r.need == n && |r.products| == 2
  {
    match n
    case TravelNeed =>
      Recommendation(TravelNeed, "Bạn đang có kế hoạch: " + p.tetPlans, [TravelDomestic, MotorExtension])
    case FamilyNeed =>
      Recommendation(FamilyNeed, "Bảo vệ gia đình trong dịp Tết", [FamilyHealth, LifeSavings])
    case MotorNeed =>
      Recommendation(MotorNeed, "Hành trình dài cần bảo vệ tốt hơn", [MotorExtension, Accident])
    case BusinessNeed =>
      Recommendation(BusinessNeed, "Bảo vệ doanh nghiệp trong dịp nghỉ Tết", [Accident, LifeSavings])
  }

  /** The rules that fire, in rule order. */
  function FiringNeeds(p: Profile): (r: seq<Need>)
    ensures |r| <= 4
    ensures forall n :: n in r <==> Fires(p, n)
    ensures forall a, b :: 0 <= a < b < |r| ==> NeedIndex(r[a]) < NeedIndex(r[b])
  {
    var r := Filter(AllNeeds, FiresFor(p));
    assert forall n :: n in AllNeeds;
    assert forall a, b :: 0 <= a < b < |AllNeeds| ==> NeedIndex(AllNeeds[a]) < NeedIndex(AllNeeds[b]);
    FilterKeepsIncreasing(AllNeeds, FiresFor(p), NeedIndex);
    r
  }

  /** The recommendations of the given rules, in the order given. */
  function RulesFor(p: Profile, needs: seq<Need>): (r: seq<Recommendation>)
    ensures |r| == |needs|
    ensures forall i :: 0 <= i < |r| ==> r[i] == RuleFor(p, needs[i])
    ensures forall n :: RuleFor(p, n) in r <==> n in needs
  {
    var r := seq(|needs|, i requires 0 <= i < |needs| => RuleFor(p, needs[i]));
    forall n ensures RuleFor(p, n) in r <==> n in needs {
      if RuleFor(p, n) in r {
        var i :| 0 <= i < |r| && r[i] == RuleFor(p, n);
        assert needs[i] == r[i].need == n;
      }
      if n in needs {
        var i :| 0 <= i < |needs| && needs[i] == n;
        assert r[i] == RuleFor(p, n);
      }
    }
    r
  }

  /** `analyze_needs`: one recommendation per rule that fires, in rule order. */
  function AnalyzeNeeds(p: Profile): (r: seq<Recommendation>)
    ensures |r| <= 4
    ensures forall n :: RuleFor(p, n) in r <==> Fires(p, n)
    ensures forall i :: 0 <= i < |r| ==> r[i] == RuleFor(p, r[i].need)
    ensures forall a, b :: 0 <= a < b < |r| ==> NeedIndex(r[a].need) < NeedIndex(r[b].need)
  {
    var needs := FiringNeeds(p);
    var r := RulesFor(p, needs);
    assert forall i :: 0 <= i < |r| ==> r[i].need == needs[i];
    r
  }

  /** The first recommendation is the earliest rule that fires. */
  lemma FirstRecommendationIsEarliestRule(p: Profile, n: Need)
    requires Fires(p, n)
    requires forall m :: NeedIndex(m) < NeedIndex(n) ==> !Fires(p, m)
    ensures |AnalyzeNeeds(p)| > 0 && AnalyzeNeeds(p)[0] == RuleFor(p, n)
  {
    var r := AnalyzeNeeds(p);
    assert RuleFor(p, n) in r;
    var i :| 0 <= i < |r| && r[i] == RuleFor(p, n);
    assert RuleFor(p, r[0].need) in r;
    assert NeedIndex(r[0].need) >= NeedIndex(n);
    assert i == 0;
  }

  lemma MinhPlansTravel()
    ensures Contains(Minh.tetPlans, "Traveling")
  {
    assert Minh.tetPlans == "Traveling home to Vinh (300km)";
    ContainsAt(Minh.tetPlans, "Traveling", 0);
  }

  lemma MinhPlansLongDrive()
    ensures Contains(Lower(Minh.tetPlans), "km")
  {
    var plans := Minh.tetPlans;
    assert plans == "Traveling home to Vinh (300km)";
    assert Lower(plans)[27] == 'k' && Lower(plans)[28] == 'm';
    ContainsAt(Lower(plans), "km", 27);
  }

  lemma MinhFiringNeeds()
    ensures FiringNeeds(Minh) == [TravelNeed, MotorNeed]
  {
    MinhPlansTravel();
    MinhPlansLongDrive();
    var f := FiresFor(Minh);
    assert Filter(AllNeeds[..1], f) == [TravelNeed];
    assert AllNeeds[..2][..1] == AllNeeds[..1];
    assert Filter(AllNeeds[..2], f) == [TravelNeed];
    assert AllNeeds[..3][..2] == AllNeeds[..2];
    assert Filter(AllNeeds[..3], f) == [TravelNeed, MotorNeed];
    assert AllNeeds[..3] == AllNeeds[..|AllNeeds| - 1];
  }

  /** Minh plans a 300 km trip home: the travel rule, then the motor rule. */
  lemma MinhNeedsTravelThenMotor()
    ensures AnalyzeNeeds(Minh) == [RuleFor(Minh, TravelNeed), RuleFor(Minh, MotorNeed)]
  {
    MinhFiringNeeds();
  }

  lemma LinhPlansNoTravelling()
    ensures !Contains(Linh.tetPlans, "Traveling")
  {
    MissingCharNotContained(Linh.tetPlans, "Traveling", 'T');
  }

  lemma LinhPlansLack(c: char)
    requires c in "pP"
    ensures c !in "Hosting family gathering"
  {
  }

  lemma LinhPlansNoTrip()
    ensures !Contains(Lower(Linh.tetPlans), "trip")
  {
    assert Linh.tetPlans == "Hosting family gathering";
    LinhPlansLack('p');
    LinhPlansLack('P');
    LowerLacks(Linh.tetPlans, 'p');
    MissingCharNotContained(Lower(Linh.tetPlans), "trip", 'p');
  }

  /** Linh hosts a family of four without life cover: the family rule comes first and
      recommends the family health package. */
  lemma LinhNeedsFamilyFirst()
    ensures |AnalyzeNeeds(Linh)| > 0 && AnalyzeNeeds(Linh)[0] == RuleFor(Linh, FamilyNeed)
    ensures AnalyzeNeeds(Linh)[0].products[0] == FamilyHealth
  {
    LinhPlansNoTravelling();
    LinhPlansNoTrip();
    forall m | NeedIndex(m) < NeedIndex(FamilyNeed) ensures !Fires(Linh, m) {
      assert m == TravelNeed;
    }
    FirstRecommendationIsEarliestRule(Linh, FamilyNeed);
  }

  /** Characters Tuan's plans contain in neither case. */
  lemma TuanPlansLack(c: char)
    requires c in "TpPkK"
    ensures c !in "Visiting children in Saigon"
  {
  }

  lemma TuanPlansNoRule()
    ensures !Contains(Tuan.tetPlans, "Traveling")
    ensures !Contains(Lower(Tuan.tetPlans), "trip")
    ensures !Contains(Lower(Tuan.tetPlans), "km")
  {
    assert Tuan.tetPlans == "Visiting children in Saigon";
    TuanPlansLack('T');
    TuanPlansLack('p');
    TuanPlansLack('P');
    TuanPlansLack('k');
    TuanPlansLack('K');
    MissingCharNotContained(Tuan.tetPlans, "Traveling", 'T');
    LowerLacks(Tuan.tetPlans, 'p');
    MissingCharNotContained(Lower(Tuan.tetPlans), "trip", 'p');
    LowerLacks(Tuan.tetPlans, 'k');
    MissingCharNotContained(Lower(Tuan.tetPlans), "km", 'k');
  }

  /** Tuan visits family nearby, holds life cover and runs no business: no rule fires, so
      the pricing branch shows the product menu and the default branch asks an open
      question. */
  lemma TuanGetsNoRecommendation()
    ensures AnalyzeNeeds(Tuan) == []
  {
    TuanPlansNoRule();
    var f := FiresFor(Tuan);
    assert Filter(AllNeeds[..1], f) == [];
    assert AllNeeds[..2][..1] == AllNeeds[..1];
    assert Filter(AllNeeds[..2], f) == [];
    assert AllNeeds[..3][..2] == AllNeeds[..2];
    assert Filter(AllNeeds[..3], f) == [];
    assert AllNeeds[..3] == AllNeeds[..|AllNeeds| - 1];
    assert FiringNeeds(Tuan) == [];
  }

  lemma HungPlansTrip()
    ensures Contains(Lower(Hung.tetPlans), "trip")
  {
    var plans := Hung.tetPlans;
    assert plans == "Business trip to Hanoi";
    assert Lower(plans)[9] == 't' && Lower(plans)[10] == 'r' && Lower(plans)[11] == 'i' && Lower(plans)[12] == 'p';
    ContainsAt(Lower(plans), "trip", 9);
  }

  lemma HungPlansLack(c: char)
    requires c in "kK"
    ensures c !in "Business trip to Hanoi"
  {
  }

  lemma HungPlansNoDistance()
    ensures !Contains(Lower(Hung.tetPlans), "km")
  {
    assert Hung.tetPlans == "Business trip to Hanoi";
    HungPlansLack('k');
    HungPlansLack('K');
    LowerLacks(Hung.tetPlans, 'k');
    MissingCharNotContained(Lower(Hung.tetPlans), "km", 'k');
  }

  lemma HungFiringNeeds()
    ensures FiringNeeds(Hung) == [TravelNeed, BusinessNeed]
  {
    HungPlansTrip();
    HungPlansNoDistance();
    var f := FiresFor(Hung);
    assert Filter(AllNeeds[..1], f) == [TravelNeed];
    assert AllNeeds[..2][..1] == AllNeeds[..1];
    assert Filter(AllNeeds[..2], f) == [TravelNeed];
    assert AllNeeds[..3][..2] == AllNeeds[..2];
    assert Filter(AllNeeds[..3], f) == [TravelNeed];
    assert AllNeeds[..3] == AllNeeds[..|AllNeeds| - 1];
  }

  /** Hung's business trip (a lower-case "trip") fires the travel rule, and his restaurant
      the business rule; his plans name no distance, so the motor rule stays silent. */
  lemma HungNeedsTravelThenBusiness()
    ensures AnalyzeNeeds(Hung) == [RuleFor(Hung, TravelNeed), RuleFor(Hung, BusinessNeed)]
  {
    HungFiringNeeds();
  }

  // ---------------------------------------------------------------------------------------
  // Phase pricing (`generate_product_recommendation`)

  /** What a product pitch quotes: at the Tet peak the list price and the 30% special price;
      in every other phase only the list price. */
  datatype Offer =
    | TetSpecial(product: ProductKey, listPrice: nat, specialPrice: nat, discountPercent: nat)
    | Standard(product: ProductKey, listPrice: nat)

  function ProductOffer(phase: string, k: ProductKey): (o: Offer)
    ensures o.product == k && o.listPrice == Lookup(k).price
    ensures o.TetSpecial? <==> phase == "tet-peak"
    ensures o.TetSpecial? ==>
      && o.discountPercent == PeakDiscountPercent
      && o.specialPrice <= o.listPrice
      && 100 * o.specialPrice <= (100 - o.discountPercent) * o.listPrice < 100 * o.specialPrice + 100
  {
    var price := Lookup(k).price;
    if phase == "tet-peak" then TetSpecial(k, price, PeakPrice(price), PeakDiscountPercent)
    else Standard(k, price)
  }

  // ---------------------------------------------------------------------------------------
  // Quick travel quote (`generate_quick_quote` with its default duration)

  const InternationalDestinations: seq<string> := ["thailand", "singapore", "malaysia", "philippines"]
  const DefaultDays := 5
  const InternationalQuote := 180000
  const DomesticQuote := 120000

  /** The quote's product type is computed by the source but not shown in its reply. */
  datatype Quote = Quote(destination: string, days: nat, price: nat, product: ProductKey)

  function QuickQuote(destination: string): (q: Quote)
    ensures q.destination == destination && q.days == DefaultDays
    ensures q.product == TravelInternational <==> Lower(destination) in InternationalDestinations
    ensures q.product == TravelInternational ==> q.price == InternationalQuote
    ensures q.product != TravelInternational ==> q.product == TravelDomestic && q.price == DomesticQuote
  {
    if Lower(destination) in InternationalDestinations then
      Quote(destination, DefaultDays, InternationalQuote, TravelInternational)
    else
      Quote(destination, DefaultDays, DomesticQuote, TravelDomestic)
  }

  /** The destinations the travel branch looks for, in this order. */
  const Destinations: seq<string> := ["thailand", "singapore", "da nang", "nha trang", "phu quoc", "ha noi", "sai gon"]

  /** The position of the first word of `words` that occurs in `text`. */
  function FirstMatch(text: string, words: seq<string>): (r: Option<nat>)
    ensures r.None? <==> forall i :: 0 <= i < |words| ==> !Contains(text, words[i])
    ensures r.Some? ==> r.value < |words| && Contains(text, words[r.value])
    ensures r.Some? ==> forall i :: 0 <= i < r.value ==> !Contains(text, words[i])
    decreases |words|
  {
    if |words| == 0 then None
    else if Contains(text, words[0]) then Some(0)
    else
      match FirstMatch(text, words[1..])
      case None => None
      case Some(i) => Some(i + 1)
  }

  /** The first listed destination found in the lowered text, title-cased as the source
      shows it. */
  function FindDestination(lowered: string): (r: Option<string>)
    ensures r.None? <==> forall i :: 0 <= i < |Destinations| ==> !Contains(lowered, Destinations[i])
    ensures r.Some? ==>
      exists i :: 0 <= i < |Destinations| && Contains(lowered, Destinations[i]) && r.value == Title(Destinations[i])
        && forall k :: 0 <= k < i ==> !Contains(lowered, Destinations[k])
  {
    match FirstMatch(lowered, Destinations)
    case None => None
    case Some(i) => Some(Title(Destinations[i]))
  }

  lemma DestinationsAreLowercase(i: nat)
    requires i < |Destinations|
    ensures Lower(Destinations[i]) == Destinations[i]
  {
    assert Lower("thailand") == "thailand";
    assert Lower("singapore") == "singapore";
    assert Lower("da nang") == "da nang";
    assert Lower("nha trang") == "nha trang";
    assert Lower("phu quoc") == "phu quoc";
    assert Lower("ha noi") == "ha noi";
    assert Lower("sai gon") == "sai gon";
  }

  /** Of the recognised destinations, exactly the first two are international. */
  lemma InternationalAmongDestinations(i: nat)
    requires i < |Destinations|
    ensures Destinations[i] in InternationalDestinations <==> i < 2
  {
    assert InternationalDestinations[0] == Destinations[0];
    assert InternationalDestinations[1] == Destinations[1];
    assert "da nang" !in InternationalDestinations && "nha trang" !in InternationalDestinations;
    assert "phu quoc" !in InternationalDestinations && "ha noi" !in InternationalDestinations;
    assert "sai gon" !in InternationalDestinations;
  }

  /** A destination found in a message is quoted at the international rate exactly when the
      message names Thailand or Singapore; the title-casing of the found name does not change
      which rate it gets. */
  lemma FoundDestinationQuote(lowered: string)
    requires FindDestination(lowered).Some?
    ensures var q := QuickQuote(FindDestination(lowered).value);
      q.price == InternationalQuote <==> Contains(lowered, "thailand") || Contains(lowered, "singapore")
  {
    var i := FirstMatch(lowered, Destinations).value;
    LowerOfTitle(Destinations[i]);
    DestinationsAreLowercase(i);
    InternationalAmongDestinations(i);
    assert Destinations[0] == "thailand" && Destinations[1] == "singapore";
  }

  // ---------------------------------------------------------------------------------------
  // Greeting (`generate_greeting`)

  const PreTetWish := "Tết đang đến gần! Bạn đã chuẩn bị gì chưa? 🎊"
  const TetPeakWish := "Chúc mừng năm mới! 🧧 Tôi có thể giúp gì cho bạn?"
  const OtherWish := "Chúc bạn năm mới thật nhiều sức khỏe và thành công! 🎉"

  /** The three greeting variants: before Tet, at the peak, and every other phase. */
  datatype Season = BeforeTet | AtPeak | Otherwise

  function SeasonOf(phase: string): (s: Season)
    ensures s == BeforeTet <==> phase == "pre-tet"
    ensures s == AtPeak <==> phase == "tet-peak"
  {
    if phase == "pre-tet" then BeforeTet else if phase == "tet-peak" then AtPeak else Otherwise
  }

  function Wish(s: Season): (r: string)
    ensures r == PreTetWish <==> s == BeforeTet
    ensures r == TetPeakWish <==> s == AtPeak
    ensures r == OtherWish <==> s == Otherwise
  {
    match s
    case BeforeTet => PreTetWish
    case AtPeak => TetPeakWish
    case Otherwise => OtherWish
  }

  function Greeting(p: Profile, phase: string): (r: string)
    ensures IsPrefix(p.greeting + " ", r)
    ensures |r| == |p.greeting| + 1 + |Wish(SeasonOf(phase))|
    ensures r[|p.greeting| + 1..] == Wish(SeasonOf(phase))
  {
    p.greeting + " " + Wish(SeasonOf(phase))
  }

  /** Two phases get the same greeting exactly when they fall in the same season. */
  lemma GreetingIdentifiesSeason(p: Profile, a: string, b: string)
    ensures Greeting(p, a) == Greeting(p, b) <==> SeasonOf(a) == SeasonOf(b)
  {
    var n := |p.greeting| + 1;
    if Greeting(p, a) == Greeting(p, b) {
      assert |Wish(SeasonOf(a))| == |Wish(SeasonOf(b))|;
      assert |PreTetWish| == 44 && |TetPeakWish| == 48 && |OtherWish| == 53;
    }
  }

  // ---------------------------------------------------------------------------------------
  // Reply dispatch (`generate_response`)

  /** The reply kinds, with the values each template shows. */
  datatype Reply =
    | ClaimSupport
    | TravelQuote(quote: Quote)
    | AskDestination
    | ProductPitch(offer: Offer)
    | ProductMenu
    | PaymentOptions
    | Goodbye
    | ContextualPitch(reason: string, offer: Offer)
    | OpenQuestion

  const ClaimWords: seq<string> := ["tai nạn", "accident", "claim", "bồi thường", "bảo hiểm"]
  const TravelWords: seq<string> := ["du lịch", "travel", "đi", "trip"]
  const PricingWords: seq<string> := ["giá", "price", "bao nhiêu", "cost"]
  const YesWords: seq<string> := ["yes", "có", "ok", "được", "đồng ý", "sure"]
  const NoWords: seq<string> := ["no", "không", "cancel", "thôi"]

  /** The pitch for the first product of the first recommendation, if there is one. */
  function FirstPitch(p: Profile, phase: string): (r: Option<(string, Offer)>)
    ensures r.None? <==> |AnalyzeNeeds(p)| == 0
    ensures r.Some? ==>
      r.value.0 == AnalyzeNeeds(p)[0].reason && r.value.1 == ProductOffer(phase, AnalyzeNeeds(p)[0].products[0])
  {
    var recs := AnalyzeNeeds(p);
    if |recs| == 0 then None
    else Some((recs[0].reason, ProductOffer(phase, recs[0].products[0])))
  }

  /** The keyword tables in the order `generate_response` checks them. */
  function Tables(claimWords: seq<string>): seq<seq<string>> {
    [claimWords, TravelWords, PricingWords, YesWords, NoWords]
  }

  /** Which branch answers: the position of the first table with a word in the lowered text,
      or 5 (the default branch) when no table has one. */
  function Route(lowered: string, claimWords: seq<string>): (k: nat)
    ensures k <= 5
    ensures forall j :: 0 <= j < k ==> !ContainsAny(lowered, Tables(claimWords)[j])
    ensures k < 5 ==> ContainsAny(lowered, Tables(claimWords)[k])
  {
    if ContainsAny(lowered, claimWords) then 0
    else if ContainsAny(lowered, TravelWords) then 1
    else if ContainsAny(lowered, PricingWords) then 2
    else if ContainsAny(lowered, YesWords) then 3
    else if ContainsAny(lowered, NoWords) then 4
    else 5
  }

  /** The travel branch: a quick quote for the first destination named, or a question
      asking where to. */
  function TravelReply(lowered: string): (r: Reply)
    ensures r.TravelQuote? || r.AskDestination?
    ensures r.TravelQuote? ==>
      FindDestination(lowered).Some? && r.quote == QuickQuote(FindDestination(lowered).value)
    ensures r.AskDestination? <==> FindDestination(lowered).None?
  {
    match FindDestination(lowered)
    case Some(d) => TravelQuote(QuickQuote(d))
    case None => AskDestination
  }

  /** The pricing branch: the offer for the first recommended product, or the product menu
      when nothing is recommended. */
  function PricingReply(p: Profile, phase: string): (r: Reply)
    ensures r.ProductPitch? || r.ProductMenu?
    ensures r.ProductPitch? ==>
      |AnalyzeNeeds(p)| > 0 && r.offer == ProductOffer(phase, AnalyzeNeeds(p)[0].products[0])
    ensures r.ProductMenu? <==> |AnalyzeNeeds(p)| == 0
  {
    match FirstPitch(p, phase)
    case Some(pitch) => ProductPitch(pitch.1)
    case None => ProductMenu
  }

  /** The default branch: the first recommendation's reason with its offer, or an open
      question when nothing is recommended. */
  function DefaultReply(p: Profile, phase: string): (r: Reply)
    ensures r.ContextualPitch? || r.OpenQuestion?
    ensures r.ContextualPitch? ==>
      && |AnalyzeNeeds(p)| > 0
      && r.reason == AnalyzeNeeds(p)[0].reason
      && r.offer == ProductOffer(phase, AnalyzeNeeds(p)[0].products[0])
    ensures r.OpenQuestion? <==> |AnalyzeNeeds(p)| == 0
  {
    match FirstPitch(p, phase)
    case Some(pitch) => ContextualPitch(pitch.0, pitch.1)
    case None => OpenQuestion
  }

  /** The dispatcher with the claim table as a parameter: the first table that matches the
      lowered text decides the kind of reply, and the branch fills it in. */
  function Dispatch(p: Profile, phase: string, lowered: string, claimWords: seq<string>): (r: Reply)
    ensures r.ClaimSupport? <==> Route(lowered, claimWords) == 0
    ensures (r.TravelQuote? || r.AskDestination?) <==> Route(lowered, claimWords) == 1
    ensures (r.ProductPitch? || r.ProductMenu?) <==> Route(lowered, claimWords) == 2
    ensures r.PaymentOptions? <==> Route(lowered, claimWords) == 3
    ensures r.Goodbye? <==> Route(lowered, claimWords) == 4
    ensures (r.ContextualPitch? || r.OpenQuestion?) <==> Route(lowered, claimWords) == 5
    ensures Route(lowered, claimWords) == 1 ==> r == TravelReply(lowered)
    ensures Route(lowered, claimWords) == 2 ==> r == PricingReply(p, phase)
    ensures Route(lowered, claimWords) == 5 ==> r == DefaultReply(p, phase)
  {
    var k := Route(lowered, claimWords);
    if k == 0 then ClaimSupport
    else if k == 1 then TravelReply(lowered)
    else if k == 2 then PricingReply(p, phase)
    else if k == 3 then PaymentOptions
    else if k == 4 then Goodbye
    else DefaultReply(p, phase)
  }

  /** `generate_response` as written, with "bảo hiểm" in the claim table. */
  function GenerateResponse(p: Profile, phase: string, userInput: string): (r: Reply)
    ensures Contains(Lower(userInput), "bảo hiểm") ==> r == ClaimSupport
    ensures r == Dispatch(p, phase, Lower(userInput), ClaimWords)
  {
    var r := Dispatch(p, phase, Lower(userInput), ClaimWords);
    assert ClaimWords[4] == "bảo hiểm";
    r
  }

  /** The claim table without the generic word "bảo hiểm" (insurance). */
  const IntendedClaimWords: seq<string> := ["tai nạn", "accident", "claim", "bồi thường"]

  /** `generate_response` with the claim table restricted to claim words, so that questions
      that merely mention insurance reach the pricing and later branches. */
  function GenerateResponseIntended(p: Profile, phase: string, userInput: string): (r: Reply)
    ensures r.ClaimSupport? <==> ContainsAny(Lower(userInput), IntendedClaimWords)
    ensures r == Dispatch(p, phase, Lower(userInput), IntendedClaimWords)
  {
    Dispatch(p, phase, Lower(userInput), IntendedClaimWords)
  }

  /** Both tables agree on every text that does not mention "bảo hiểm". */
  lemma TablesAgreeWithoutInsuranceWord(p: Profile, phase: string, userInput: string)
    requires !Contains(Lower(userInput), "bảo hiểm")
    ensures GenerateResponse(p, phase, userInput) == GenerateResponseIntended(p, phase, userInput)
  {
    var l := Lower(userInput);
    assert ContainsAny(l, ClaimWords) <==> ContainsAny(l, IntendedClaimWords) by {
      if ContainsAny(l, ClaimWords) {
        var w :| w in ClaimWords && Contains(l, w);
        assert w in IntendedClaimWords;
      }
      if ContainsAny(l, IntendedClaimWords) {
        var w :| w in IntendedClaimWords && Contains(l, w);
        assert w in ClaimWords;
      }
    }
  }

  /** The rule agent's own sample prompt, "how much is motorbike insurance?". */
  const SamplePricingQuestion := "Giá bảo hiểm xe máy bao nhiêu?"

  const SampleLowered := "giá bảo hiểm xe máy bao nhiêu?"

  lemma SampleLowersPlainly()
    ensures Lower(SamplePricingQuestion) == SampleLowered
  {
  }

  /** Characters the lowered sample question does not contain. */
  lemma SampleLacks(c: char)
    requires c in "tcồdđ"
    ensures c !in SampleLowered
  {
  }

  lemma SampleMentionsInsurance()
    ensures Contains(SampleLowered, "bảo hiểm")
  {
    ContainsAt(SampleLowered, "bảo hiểm", 4);
  }

  lemma SampleAsksPrice()
    ensures ContainsAny(SampleLowered, PricingWords)
  {
    ContainsAt(SampleLowered, "giá", 0);
    assert PricingWords[0] == "giá";
  }

  lemma SampleHasNoClaimWord()
    ensures !ContainsAny(SampleLowered, IntendedClaimWords)
  {
    SampleLacks('t');
    SampleLacks('c');
    SampleLacks('ồ');
    assert "tai nạn"[0] == 't' && "accident"[1] == 'c' && "claim"[0] == 'c' && "bồi thường"[1] == 'ồ';
    NoneContained(SampleLowered, IntendedClaimWords, "tccồ");
  }

  lemma SampleHasNoTravelWord()
    ensures !ContainsAny(SampleLowered, TravelWords)
  {
    SampleLacks('d');
    SampleLacks('t');
    SampleLacks('đ');
    assert "du lịch"[0] == 'd' && "travel"[0] == 't' && "đi"[0] == 'đ' && "trip"[0] == 't';
    NoneContained(SampleLowered, TravelWords, "dtđt");
  }

  /** As written, the sample pricing question gets the claim-handling reply, whoever asks
      and in whatever phase. */
  lemma SamplePricingQuestionGetsClaimReply(p: Profile, phase: string)
    ensures GenerateResponse(p, phase, SamplePricingQuestion) == ClaimSupport
  {
    SampleLowersPlainly();
    SampleMentionsInsurance();
  }

  /** With the intended claim table, Linh asking the sample question at the Tet peak is
      quoted the family health package at 2,450,000 instead of its list price 3,500,000. */
  lemma SamplePricingQuestionQuotesLinh()
    ensures GenerateResponseIntended(Linh, "tet-peak", SamplePricingQuestion)
         == ProductPitch(TetSpecial(FamilyHealth, 3500000, 2450000, 30))
  {
    SampleLowersPlainly();
    SampleHasNoClaimWord();
    SampleHasNoTravelWord();
    SampleAsksPrice();
    LinhNeedsFamilyFirst();
    CatalogPeakPrices();
  }

  /** A family pricing question, "how much is family insurance?". */
  const FamilyPriceQuestion := "Giá bảo hiểm gia đình bao nhiêu?"

  const FamilyPriceLowered := "giá bảo hiểm gia đình bao nhiêu?"

  lemma FamilyPriceLowersPlainly()
    ensures Lower(FamilyPriceQuestion) == FamilyPriceLowered
  {
  }

  /** Characters the lowered family question does not contain. */
  lemma FamilyPriceLacks(c: char)
    requires c in "tcồd"
    ensures c !in FamilyPriceLowered
  {
  }

  /** "đ" occurs once in the lowered family question, at position 17, followed by "ì":
      the "đ" of "đình" (family) is not the "đi" (go) of the travel table. */
  lemma FamilyPriceSoleD(k: int)
    requires 0 <= k < |FamilyPriceLowered| && FamilyPriceLowered[k] == 'đ'
    ensures k == 17
  {
  }

  lemma FamilyPriceMentionsInsuranceAndPrice()
    ensures Contains(FamilyPriceLowered, "bảo hiểm")
    ensures ContainsAny(FamilyPriceLowered, PricingWords)
  {
    ContainsAt(FamilyPriceLowered, "bảo hiểm", 4);
    ContainsAt(FamilyPriceLowered, "giá", 0);
    assert PricingWords[0] == "giá";
  }

  lemma FamilyPriceHasNoClaimWord()
    ensures !ContainsAny(FamilyPriceLowered, IntendedClaimWords)
  {
    FamilyPriceLacks('t');
    FamilyPriceLacks('c');
    FamilyPriceLacks('ồ');
    assert "tai nạn"[0] == 't' && "accident"[1] == 'c' && "claim"[0] == 'c' && "bồi thường"[1] == 'ồ';
    NoneContained(FamilyPriceLowered, IntendedClaimWords, "tccồ");
  }

  lemma FamilyPriceHasNoTravelWord()
    ensures !ContainsAny(FamilyPriceLowered, TravelWords)
  {
    FamilyPriceLacks('t');
    FamilyPriceLacks('d');
    forall k | 0 <= k < |FamilyPriceLowered| && FamilyPriceLowered[k] == "đi"[0] ensures k == 17 {
      FamilyPriceSoleD(k);
    }
    assert FamilyPriceLowered[18] == 'ì';
    SoleStartNotContained(FamilyPriceLowered, "đi", 17);
    MissingCharNotContained(FamilyPriceLowered, "du lịch", 'd');
    MissingCharNotContained(FamilyPriceLowered, "travel", 't');
    MissingCharNotContained(FamilyPriceLowered, "trip", 't');
    assert forall w :: w in TravelWords ==> w in ["du lịch", "travel", "đi", "trip"];
  }

  /** Linh asking the family question at the Tet peak: as written she gets the claim-handling
      reply; with the intended claim table she is quoted the family health package at the
      Tet price 2,450,000 instead of 3,500,000. */
  lemma FamilyPriceQuestionForLinh()
    ensures GenerateResponse(Linh, "tet-peak", FamilyPriceQuestion) == ClaimSupport
    ensures GenerateResponseIntended(Linh, "tet-peak", FamilyPriceQuestion)
         == ProductPitch(TetSpecial(FamilyHealth, 3500000, 2450000, 30))
  {
    FamilyPriceLowersPlainly();
    FamilyPriceMentionsInsuranceAndPrice();
    FamilyPriceHasNoClaimWord();
    FamilyPriceHasNoTravelWord();
    LinhNeedsFamilyFirst();
    CatalogPeakPrices();
  }

  const AgreeAndRefuse := "Có không?"
  const AgreeAndRefuseLowered := "có không?"

  /** Characters the lowered agree-and-refuse text does not contain. */
  lemma AgreeAndRefuseLacks(c: char)
    requires c in "tabdđips"
    ensures c !in AgreeAndRefuseLowered
  {
  }

  lemma AgreeAndRefuseLowersPlainly()
    ensures Lower(AgreeAndRefuse) == AgreeAndRefuseLowered
  {
  }

  lemma AgreeAndRefuseHasNoEarlierWord()
    ensures !ContainsAny(AgreeAndRefuseLowered, ClaimWords)
  {
    AgreeAndRefuseLacks('t');
    AgreeAndRefuseLacks('a');
    AgreeAndRefuseLacks('b');
    assert "tai nạn"[0] == 't' && "accident"[0] == 'a' && "claim"[2] == 'a';
    assert "bồi thường"[0] == 'b' && "bảo hiểm"[0] == 'b';
    NoneContained(AgreeAndRefuseLowered, ClaimWords, "taabb");
  }

  lemma AgreeAndRefuseHasNoTravelOrPriceWord()
    ensures !ContainsAny(AgreeAndRefuseLowered, TravelWords)
    ensures !ContainsAny(AgreeAndRefuseLowered, PricingWords)
  {
    AgreeAndRefuseLacks('d');
    AgreeAndRefuseLacks('t');
    AgreeAndRefuseLacks('đ');
    AgreeAndRefuseLacks('i');
    AgreeAndRefuseLacks('p');
    AgreeAndRefuseLacks('b');
    AgreeAndRefuseLacks('s');
    assert "du lịch"[0] == 'd' && "travel"[0] == 't' && "đi"[0] == 'đ' && "trip"[0] == 't';
    NoneContained(AgreeAndRefuseLowered, TravelWords, "dtđt");
    assert "giá"[1] == 'i' && "price"[0] == 'p' && "bao nhiêu"[0] == 'b' && "cost"[2] == 's';
    NoneContained(AgreeAndRefuseLowered, PricingWords, "ipbs");
  }

  lemma AgreeAndRefuseAgrees()
    ensures ContainsAny(AgreeAndRefuseLowered, YesWords)
  {
    ContainsAt(AgreeAndRefuseLowered, "có", 0);
    assert YesWords[1] == "có";
  }

  /** Agreement outranks refusal: "Có không?" mentions both and gets the payment options. */
  lemma AgreementBeatsRefusal(p: Profile, phase: string)
    ensures GenerateResponse(p, phase, AgreeAndRefuse) == PaymentOptions
  {
    AgreeAndRefuseLowersPlainly();
    AgreeAndRefuseHasNoEarlierWord();
    AgreeAndRefuseHasNoTravelOrPriceWord();
    AgreeAndRefuseAgrees();
  }
}

=== FILE: seqs.dfy ===
/** Sequence helpers: Python's slice forms `s[k:]` and `s[:k]` for any integer `k`, the
    "last n elements" reference definition, and an order-preserving filter (Python's
    `[x for x in s if p(x)]`). */
module Seqs {

  datatype Option<T> = None | Some(value: T)

  function Min(a: int, b: int): int {
    if a <= b then a else b
  }

  /** The last `min(n, |s|)` elements of `s`, in order. */
  function LastN<T>(s: seq<T>, n: nat): (r: seq<T>)
    ensures |r| == Min(n, |s|)
  {
    s[|s| - Min(n, |s|)..]
  }

  /** Python's `s[k:]`: a negative `k` counts from the end, and both kinds of
      out-of-range index are clamped. */
  function PyDrop<T>(s: seq<T>, k: int): (r: seq<T>)
    ensures |r| <= |s| && r == s[|s| - |r|..]
    ensures k >= 0 ==> |r| == |s| - Min(k, |s|)
    ensures k < 0 ==> |r| == Min(-k, |s|)
  {
    if k >= 0 then s[Min(k, |s|)..]
    else if |s| + k <= 0 then s
    else s[|s| + k..]
  }

  /** Python's `s[:k]`, with the same index conventions as `PyDrop`. */
  function PyTake<T>(s: seq<T>, k: int): (r: seq<T>)
    ensures |r| <= |s| && r == s[..|r|]
    ensures k >= 0 ==> |r| == Min(k, |s|)
    ensures k < 0 ==> |r| == |s| - Min(-k, |s|)
  {
    if k >= 0 then s[..Min(k, |s|)]
    else if |s| + k <= 0 then []
    else s[..|s| + k]
  }

  /** `[x for x in s if p(x)]`. */
  function Filter<T(!new)>(s: seq<T>, p: T -> bool): (r: seq<T>)
    ensures |r| <= |s|
    ensures forall x :: x in r <==> x in s && p(x)
    decreases |s|
  {
    if |s| == 0 then []
    else Filter(s[..|s| - 1], p) + (if p(s[|s| - 1]) then [s[|s| - 1]] else [])
  }

  /** Filtering a concatenation filters each side and keeps them in order. */
  lemma {:induction false} FilterAppend<T(!new)>(a: seq<T>, b: seq<T>, p: T -> bool)
    ensures Filter(a + b, p) == Filter(a, p) + Filter(b, p)
    decreases |b|
  {
    if |b| == 0 {
      assert a + b == a;
    } else {
      var b' := b[..|b| - 1];
      assert (a + b)[..|a + b| - 1] == a + b';
      FilterAppend(a, b', p);
    }
  }

  /** The last element the filter keeps is the latest element of `s` that satisfies `p`;
      `i` is its position. */
  lemma {:induction false} FilterLastIsLatest<T(!new)>(s: seq<T>, p: T -> bool) returns (i: int)
    requires |Filter(s, p)| > 0
    ensures 0 <= i < |s| && s[i] == Filter(s, p)[|Filter(s, p)| - 1] && p(s[i])
    ensures forall j :: i < j < |s| ==> !p(s[j])
    decreases |s|
  {
    var n := |s| - 1;
    if p(s[n]) {
      i := n;
    } else {
      assert Filter(s, p) == Filter(s[..n], p);
      i := FilterLastIsLatest(s[..n], p);
      assert s[i] == s[..n][i];
      forall j | i < j < |s| ensures !p(s[j]) {
        if j < n { assert s[j] == s[..n][j]; }
      }
    }
  }

  /** Filtering keeps a list that is strictly increasing under `key` strictly increasing. */
  lemma {:induction false} FilterKeepsIncreasing<T(!new)>(s: seq<T>, p: T -> bool, key: T -> int)
    requires forall a, b :: 0 <= a < b < |s| ==> key(s[a]) < key(s[b])
    ensures forall a, b :: 0 <= a < b < |Filter(s, p)| ==> key(Filter(s, p)[a]) < key(Filter(s, p)[b])
    decreases |s|
  {
    if |s| > 0 {
      var init := s[..|s| - 1];
      var last := s[|s| - 1];
      FilterKeepsIncreasing(init, p, key);
      var fi := Filter(init, p);
      var r := Filter(s, p);
      assert r == fi + (if p(last) then [last] else []);
      forall a, b | 0 <= a < b < |r| ensures key(r[a]) < key(r[b]) {
        if b >= |fi| {
          assert r[a] == fi[a] && r[b] == last;
          assert fi[a] in fi;
          var i :| 0 <= i < |init| && init[i] == fi[a];
          assert s[i] == fi[a] && i < |s| - 1;
          assert key(s[i]) < key(s[|s| - 1]);
        } else {
          assert r[a] == fi[a] && r[b] == fi[b];
          assert key(fi[a]) < key(fi[b]);
        }
      }
    }
  }
}

=== FILE: strings.dfy ===
/** Text helpers shared by both agents: Python's `sub in s`, `any(w in s for w in words)`,
    `str.lower()`, `str.title()`, `sep.join(parts)` and `str(n)`, over `seq<char>`.
    Case mapping covers the ASCII letters only. */
module Strings {

  predicate IsPrefix(p: string, s: string) {
    |p| <= |s| && s[..|p|] == p
  }

  /** The window of `s` starting at `i` spells `sub`. */
  predicate OccursAt(s: string, sub: string, i: int) {
    0 <= i && i + |sub| <= |s| && s[i..i + |sub|] == sub
  }

  /** Python's `sub in s`: some window of `s` equals `sub`. */
  predicate Contains(s: string, sub: string) {
    exists i :: 0 <= i <= |s| - |sub| && OccursAt(s, sub, i)
  }

  /** Python's `any(w in s for w in words)`. */
  predicate ContainsAny(s: string, words: seq<string>) {
    exists w :: w in words && Contains(s, w)
  }

  /** A string that is `a`, then `sub`, then `b` contains `sub`: the witness is `|a|`. */
  lemma ContainsMiddle(a: string, sub: string, b: string)
    ensures Contains(a + sub + b, sub)
  {
    var s := a + sub + b;
    assert s[|a|..|a| + |sub|] == sub;
    assert OccursAt(s, sub, |a|);
  }

  /** `sub` occurs in `s` when the characters of `s` from position `i` on spell it. */
  lemma ContainsAt(s: string, sub: string, i: int)
    requires 0 <= i && i + |sub| <= |s|
    requires forall k :: 0 <= k < |sub| ==> s[i + k] == sub[k]
    ensures Contains(s, sub)
  {
    assert s[i..i + |sub|] == sub;
    assert OccursAt(s, sub, i);
  }

  /** A character of `sub` that never occurs in `s` rules out `sub in s`. */
  lemma MissingCharNotContained(s: string, sub: string, c: char)
    requires c in sub && c !in s
    ensures !Contains(s, sub)
  {
  }

  /** No word of `words` occurs in `s` when each has a character, `marks[i]` for the `i`-th,
      that `s` lacks. */
  lemma NoneContained(s: string, words: seq<string>, marks: string)
    requires |marks| == |words|
    requires forall i :: 0 <= i < |words| ==> marks[i] in words[i] && marks[i] !in s
    ensures !ContainsAny(s, words)
  {
    forall w | w in words ensures !Contains(s, w) {
      var i :| 0 <= i < |words| && words[i] == w;
      MissingCharNotContained(s, w, marks[i]);
    }
  }

  /** `sub` does not occur in `s` when the only place its first character appears in `s`
      is position `i` and the next character there differs from its second. */
  lemma SoleStartNotContained(s: string, sub: string, i: int)
    requires |sub| >= 2 && 0 <= i < |s|
    requires forall k :: 0 <= k < |s| && s[k] == sub[0] ==> k == i
    requires i + 1 < |s| ==> s[i + 1] != sub[1]
    ensures !Contains(s, sub)
  {
    forall k | 0 <= k <= |s| - |sub| ensures !OccursAt(s, sub, k) {
      if k == i {
        assert s[k..k + |sub|][1] == s[k + 1] != sub[1];
      } else {
        assert s[k..k + |sub|][0] == s[k] != sub[0];
      }
    }
  }

  /** Text found in `b` is still found after something is put in front of it. */
  lemma ContainsInSuffix(a: string, b: string, sub: string)
    requires Contains(b, sub)
    ensures Contains(a + b, sub)
  {
    var i :| 0 <= i <= |b| - |sub| && OccursAt(b, sub, i);
    assert (a + b)[|a| + i..|a| + i + |sub|] == b[i..i + |sub|];
    assert OccursAt(a + b, sub, |a| + i);
  }

  /** Every part of a join occurs in the joined text. */
  lemma {:induction false} JoinContainsParts(parts: seq<string>, sep: string, j: int)
    requires 0 <= j < |parts|
    ensures Contains(Join(parts, sep), parts[j])
    decreases |parts|
  {
    var r := Join(parts, sep);
    assert OccursAt(r, parts[j], PartStart(parts, sep, j));
  }

  /** Text equal to some part of a join occurs in the joined text. */
  lemma JoinContainsText(parts: seq<string>, sep: string, j: int, text: string)
    requires 0 <= j < |parts| && parts[j] == text
    ensures Contains(Join(parts, sep), text)
  {
    JoinContainsParts(parts, sep, j);
  }

  function LowerChar(c: char): char {
    if 'A' <= c <= 'Z' then (c as int + 32) as char else c
  }

  function UpperChar(c: char): char {
    if 'a' <= c <= 'z' then (c as int - 32) as char else c
  }

  predicate IsLetter(c: char) {
    'a' <= c <= 'z' || 'A' <= c <= 'Z'
  }

  /** Python's `s.lower()`, restricted to ASCII letters. */
  function Lower(s: string): (r: string)
    ensures |r| == |s|
    ensures forall i :: 0 <= i < |s| ==> r[i] == LowerChar(s[i])
    ensures forall i :: 0 <= i < |r| ==> !('A' <= r[i] <= 'Z')
    ensures forall i :: 0 <= i < |s| && !('A' <= s[i] <= 'Z') ==> r[i] == s[i]
  {
    seq(|s|, i requires 0 <= i < |s| => LowerChar(s[i]))
  }

  /** Python's `s.title()`: a letter that starts a word is upper-cased, every other letter
      lower-cased. */
  function Title(s: string): (r: string)
    ensures |r| == |s|
    ensures |s| > 0 ==> r[0] == UpperChar(s[0])
    ensures forall i :: 0 <= i < |s| ==> LowerChar(r[i]) == LowerChar(s[i])
    ensures forall i :: 0 < i < |s| && !IsLetter(s[i - 1]) ==> r[i] == UpperChar(s[i])
    ensures forall i :: 0 < i < |s| && IsLetter(s[i - 1]) ==> r[i] == LowerChar(s[i])
  {
    var r := seq(|s|, i requires 0 <= i < |s| => TitleChar(s, i));
    TitleChangesOnlyCase(s, r);
    r
  }

  /** The character `title()` puts at position `i`. */
  function TitleChar(s: string, i: int): char
    requires 0 <= i < |s|
  {
    if i == 0 || !IsLetter(s[i - 1]) then UpperChar(s[i]) else LowerChar(s[i])
  }

  lemma TitleChangesOnlyCase(s: string, r: string)
    requires |r| == |s| && forall i :: 0 <= i < |s| ==> r[i] == TitleChar(s, i)
    ensures forall i :: 0 <= i < |s| ==> LowerChar(r[i]) == LowerChar(s[i])
  {
    forall i | 0 <= i < |s| ensures LowerChar(r[i]) == LowerChar(s[i]) {
      LowerCharForgetsCase(s[i]);
    }
  }

  lemma LowerCharForgetsCase(c: char)
    ensures LowerChar(UpperChar(c)) == LowerChar(c) && LowerChar(LowerChar(c)) == LowerChar(c)
  {
  }

  /** Title-casing and then lower-casing forgets the title-casing. */
  lemma LowerOfTitle(s: string)
    ensures Lower(Title(s)) == Lower(s)
  {
    var t := Title(s);
    forall i | 0 <= i < |s|
      ensures Lower(t)[i] == Lower(s)[i]
    {
      LowerCharForgetsCase(s[i]);
    }
  }

  /** Lower-casing cannot produce a lower-case letter that occurs in neither case. */
  lemma LowerLacks(s: string, c: char)
    requires 'a' <= c <= 'z' && c !in s && UpperChar(c) !in s
    ensures c !in Lower(s)
  {
    forall i | 0 <= i < |s| ensures Lower(s)[i] != c {
      assert s[i] != c && s[i] != UpperChar(c);
    }
  }

  /** The total length of `parts`. */
  function TotalLength(parts: seq<string>): nat
    decreases |parts|
  {
    if |parts| == 0 then 0 else |parts[0]| + TotalLength(parts[1..])
  }

  /** Python's `sep.join(parts)`: the parts in order with one separator between
      neighbours, and none before the first or after the last. */
  function Join(parts: seq<string>, sep: string): (r: string)
    ensures |parts| == 0 ==> r == ""
    ensures |parts| > 0 ==> IsPrefix(parts[0], r)
    ensures |parts| > 0 ==> |r| == TotalLength(parts) + (|parts| - 1) * |sep|
    ensures forall j :: 0 <= j < |parts| ==> OccursAt(r, parts[j], PartStart(parts, sep, j))
    ensures forall j :: 0 <= j < |parts| - 1 ==> OccursAt(r, sep, PartStart(parts, sep, j) + |parts[j]|)
    decreases |parts|
  {
    if |parts| == 0 then ""
    else if |parts| == 1 then
      assert OccursAt(parts[0], parts[0], 0);
      parts[0]
    else
      var rest := Join(parts[1..], sep);
      JoinLengthStep(parts, sep, rest);
      JoinPartsStep(parts, sep, rest);
      JoinSeparatorsStep(parts, sep, rest);
      parts[0] + sep + rest
  }

  /** Where `sep.join(parts)` puts the `j`-th part: after the parts before it, each followed
      by one separator. */
  function PartStart(parts: seq<string>, sep: string, j: int): nat
    requires 0 <= j <= |parts|
    decreases j
  {
    if j == 0 then 0 else |parts[0]| + |sep| + PartStart(parts[1..], sep, j - 1)
  }

  /** `parts[0] + sep + rest` starts with the first part and, when `rest` has the length of
      the join of the other parts, has the length of the join of all of them. */
  lemma JoinLengthStep(parts: seq<string>, sep: string, rest: string)
    requires |parts| >= 2
    requires |rest| == TotalLength(parts[1..]) + (|parts| - 2) * |sep|
    ensures IsPrefix(parts[0], parts[0] + sep + rest)
    ensures |parts[0] + sep + rest| == TotalLength(parts) + (|parts| - 1) * |sep|
  {
    assert (parts[0] + sep + rest)[..|parts[0]|] == parts[0];
    assert (|parts| - 1) * |sep| == (|parts| - 2) * |sep| + |sep|;
  }

  /** The parts of `parts[0] + sep + rest` sit one part and one separator further on than
      they do in `rest`, the join of the other parts. */
  lemma JoinPartsStep(parts: seq<string>, sep: string, rest: string)
    requires |parts| >= 2
    requires forall j :: 0 <= j < |parts| - 1 ==>
      OccursAt(rest, parts[1..][j], PartStart(parts[1..], sep, j))
    ensures forall j :: 0 <= j < |parts| ==>
      OccursAt(parts[0] + sep + rest, parts[j], PartStart(parts, sep, j))
  {
    var r := parts[0] + sep + rest;
    var head := |parts[0]| + |sep|;
    assert r[..|parts[0]|] == parts[0];
    assert OccursAt(r, parts[0], 0);
    forall j | 1 <= j < |parts|
      ensures OccursAt(r, parts[j], PartStart(parts, sep, j))
    {
      var o := PartStart(parts[1..], sep, j - 1);
      assert parts[1..][j - 1] == parts[j];
      assert OccursAt(rest, parts[j], o);
      assert r[head + o..head + o + |parts[j]|] == rest[o..o + |parts[j]|];
    }
  }

  /** Likewise for the separators: one after the first part, then those of `rest`, shifted. */
  lemma JoinSeparatorsStep(parts: seq<string>, sep: string, rest: string)
    requires |parts| >= 2
    requires forall j :: 0 <= j < |parts| - 2 ==>
      OccursAt(rest, sep, PartStart(parts[1..], sep, j) + |parts[1..][j]|)
    ensures forall j :: 0 <= j < |parts| - 1 ==>
      OccursAt(parts[0] + sep + rest, sep, PartStart(parts, sep, j) + |parts[j]|)
  {
    var r := parts[0] + sep + rest;
    var head := |parts[0]| + |sep|;
    assert r[|parts[0]|..head] == sep;
    assert OccursAt(r, sep, PartStart(parts, sep, 0) + |parts[0]|);
    forall j | 1 <= j < |parts| - 1
      ensures OccursAt(r, sep, PartStart(parts, sep, j) + |parts[j]|)
    {
      var o := PartStart(parts[1..], sep, j - 1) + |parts[j]|;
      assert parts[1..][j - 1] == parts[j];
      assert OccursAt(rest, sep, o);
      assert r[head + o..head + o + |sep|] == rest[o..o + |sep|];
    }
  }

  function DigitChar(d: int): char
    requires 0 <= d < 10
  {
    "0123456789"[d]
  }

  /** The number a string of decimal digits spells, most significant digit first. */
  function DigitsValue(s: string): int
    decreases |s|
  {
    if |s| == 0 then 0
    else 10 * DigitsValue(s[..|s| - 1]) + (s[|s| - 1] as int - '0' as int)
  }

  /** Python's `str(n)` for a non-negative integer: its decimal digits, without leading zeros. */
  function NatToString(n: nat): (r: string)
    ensures |r| >= 1
    ensures forall i :: 0 <= i < |r| ==> '0' <= r[i] <= '9'
    ensures n >= 10 ==> r[0] != '0'
    ensures DigitsValue(r) == n
    decreases n
  {
    if n < 10 then
      var r := [DigitChar(n)];
      assert r[..0] == [];
      r
    else
      var r := NatToString(n / 10) + [DigitChar(n % 10)];
      assert r[..|r| - 1] == NatToString(n / 10);
      r
  }

  /** Python's `str(n)`: a minus sign for a negative number, then the digits of its size. */
  function IntToString(n: int): (r: string)
    ensures |r| >= 1
    ensures n < 0 <==> r[0] == '-'
    ensures n >= 0 ==> DigitsValue(r) == n
    ensures n < 0 ==> DigitsValue(r[1..]) == -n
    ensures forall i :: (if n < 0 then 1 else 0) <= i < |r| ==> '0' <= r[i] <= '9'
    ensures n < 0 ==> |r| >= 2 && r[1] != '0'
    ensures n >= 0 && |r| >= 2 ==> r[0] != '0'
  {
    if n < 0 then
      var r := "-" + NatToString(-n);
      assert r[1..] == NatToString(-n);
      r
    else NatToString(n)
  }
}
